=== FILE: README.md ===
# vault-cli in Dafny

A model of the decision logic of `vault-cli`, a command-line client for
HashiCorp Vault. Each command sits between the command line and a Vault
client. The model treats that logic as pure functions. The outside world
enters as parameters: the stored profiles, the backend's replies, the file
system's answers, the user's answers to prompts and the text on standard
input. Each command returns a `Run`: the trace of effects it caused (status
queries, key submissions, writes, deletes, prompts, messages) and an outcome.
The outcome is either an exit code or `Failed(error)`, meaning the error was
thrown to the shared error handler, which ends the process.

Modules, following the program's files:

- `Wrappers` (`wrappers.dfy`): `Option` and `Result`.
- `Types` (`types.dfy`): profiles, clients, seal status, errors, messages,
  effects, runs, and counting effects of one kind.
- `Strings` (`strings.dfy`): the JavaScript string operations the program
  uses (`split`, `join`, dropping empty parts, `trim`, suffix removal,
  `replace` of one character, collapsing runs). They are related by
  round-trip lemmas.
- `Numbers` (`numbers.dfy`): `parseInt` with no radix argument. It skips
  leading whitespace, takes an optional sign, accepts a `0x` prefix, reads the
  longest digit prefix and ignores the rest. An empty digit prefix is `NaN`,
  modelled as `None`.
- `Records` and `Schemas` (`records.dfy`): option objects as maps from keys to
  values, object spread, and the subset of zod the schemas use. That subset is
  required and optional strings, string arrays with defaults, booleans,
  enumerations with defaults, and stripping of undeclared keys.
- `Vault` (`vault.dfy`): the KV version-2 secret reference
  `mount/path/to/secret`.
- `Profiles` (`profiles.dfy`): the profile store as a map from names to
  profiles.
- `Helpers` (`helpers.dfy`): credential resolution, the unsealed-client gate
  and the accessible-path check.
- `Command` (`command.dfy`): the shared command wrapper. It splits the
  declared name, camel-cases argument names, merges options and arguments,
  validates them, and dispatches on the client the command needs.
- One module per command: `UnsealCommand`, `SealCommand`,
  `MakeProfileCommand`, `PushCommand`, `PullCommand`, `RemoveCommand`,
  `MountCommand`.

The implementation of `readKV2Path` (`src/lib/vault.ts`) is not part of this
model. Its four pinned cases in `tests/vault.test.ts` are the only evidence
of it. `Vault.ReadKv2Path` is a definition chosen to meet them:

- Split the reference on `/` and drop the empty segments.
- Reject a reference with no `/` at all, or with no non-empty segment.
- Otherwise the first segment is the mount and the remaining segments, joined
  by `/`, are the path.

This rule also decides inputs the tests do not cover. For example, `secret/`
is read as mount `secret` with the empty path (`Vault.MountOnlyIsEngineRoot`).

Where the code and the documented behaviour disagree, the model follows the
code. `push` and `rm` parse the secret reference only after they ask the
backend whether the path exists and after the confirmation prompt. An invalid
reference is therefore rejected late, not before any backend call
(`PushCommand.InvalidReferenceRejectedLate`, `RemoveCommand.Removal`).

## Model

| member | source | states |
|---|---|---|
| `Vault.ReadKv2Path` | tests/vault.test.ts:5-33 | A reference is rejected, with the error naming it, exactly when it has no `/` or no non-empty segment. Otherwise the mount is a non-empty name without `/`, the path is normalised, and mount and path segments together are the reference's non-empty segments. |
| `Vault.ParsesMountAndPath` | tests/vault.test.ts:6-13 | `secret/my-app/production` reads as mount `secret` and path `my-app/production`. |
| `Vault.RejectsReferenceWithoutSlash` | tests/vault.test.ts:15-18 | `secret` is rejected with the invalid-path error naming it. |
| `Vault.RejectsBareSlash` | tests/vault.test.ts:20-23 | `/` is rejected with the invalid-path error naming it. |
| `Vault.IgnoresOuterSlashes` | tests/vault.test.ts:25-32 | `/secret/my-app/production/` reads the same as the reference without the outer slashes. |
| `Vault.OuterSlashesIgnored` | tests/vault.test.ts:25-32 | For every valid reference, adding one leading and one trailing slash does not change the result. |
| `Vault.LeadingSlashIgnored` | tests/vault.test.ts:25-32 | For a reference with a `/`, a leading slash changes neither validity nor the parsed mount and path. |
| `Vault.TrailingSlashIgnored` | tests/vault.test.ts:25-32 | For a reference with a `/`, a trailing slash changes neither validity nor the parsed mount and path. |
| `Vault.ReadOfJoinedSegments` | tests/vault.test.ts:6-13 | Two or more non-empty slash-free segments joined by `/` read as the first segment for the mount and the rest, joined, for the path. |
| `Vault.RenderRoundTrip` | tests/vault.test.ts:6-13 | Writing a mount and a normalised path as `mount/path` and reading it back gives the same pair. |
| `Vault.ReadRenderIdempotent` | tests/vault.test.ts:5-33 | Re-rendering a parsed reference and parsing it again gives the same result. |
| `Vault.ReadDependsOnSegments` | tests/vault.test.ts:5-33 | Two references with the same non-empty segments, both with or both without a `/`, read the same. |
| `Vault.MountOnlyIsEngineRoot` | tests/vault.test.ts:5-33 | Under the chosen rule, `secret/` reads as mount `secret` with the empty path. The tests leave this case open. |
| `Profiles.SetProfile` | src/lib/profile.ts:12-18 | After storing, the name gives the new profile, every other name gives what it gave before, and the names are the old ones plus this one. |
| `Profiles.DeleteProfile` | src/lib/profile.ts:20-26 | After deleting, the name gives nothing and every other name is unchanged. |
| `Profiles.GetAllProfiles` | src/lib/profile.ts:28-32 | Every lookup by name agrees with the returned map. |
| `Profiles.SetReplacesWhole` | src/lib/profile.ts:15 | Storing twice under one name keeps only the second profile. Nothing of the first survives. |
| `Profiles.DeleteAbsentIsNoOp` | src/lib/profile.ts:23 | Deleting a name that is not stored leaves the store unchanged. |
| `Profiles.DeleteUndoesSet` | src/lib/profile.ts:12-26 | Deleting a newly stored name restores the store as it was. |
| `Profiles.SetSameIsNoOp` | src/lib/profile.ts:12-18 | Storing the profile a name already holds leaves the store unchanged. |
| `Helpers.ProfileName` | src/lib/helpers.ts:10-12 | A profile is named exactly when the option is a non-empty string. |
| `Helpers.ResolveCredentials` | src/lib/helpers.ts:9-32 | A named profile gives exactly the stored profile, or fails with profile-not-found and no fallback to the pair. With no name, both endpoint and token truthy give exactly that pair. Otherwise it fails with the missing-credentials error. |
| `Helpers.NamedProfileShadowsPair` | src/lib/helpers.ts:12-20 | Once a profile is named, the endpoint and token options have no influence on the result. |
| `Helpers.ResolvedIsStoredOrSupplied` | src/lib/helpers.ts:9-32 | Resolved credentials are a stored profile or exactly the endpoint and token the options carried. |
| `Helpers.GetUnsealedClient` | src/lib/helpers.ts:34-52 | A credential failure makes no backend call. Otherwise there is exactly one status query. A status error is rethrown unchanged, a sealed backend fails with the sealed error, and an unsealed one gives the client bound to the resolved credentials. |
| `Helpers.ResolveAccessiblePath` | src/lib/helpers.ts:54-63 | The absolute path is returned exactly when it is accessible. Otherwise the error names the path as given. `push` goes through it, so the checked directory is the absolute one and the env file is resolved against it. |
| `Records.Spread` | src/lib/command.ts:49 | The keys are those of both records. A key of the later record takes its value, and any other key keeps the earlier value. |
| `Schemas.Coerce` | src/commands/remove.ts:12-19 | A supplied value is kept as it is. An absent value becomes the rule's default: the string, the enum choice, the flag or the list given to `.default(...)`. An absent optional or required value stays absent. A value the rule accepts ends up in the rule's declared shape. |
| `Schemas.Parse` | src/lib/command.ts:49 | Validation fails exactly when some declared key is rejected, and the error carries the set of rejected keys. On success only declared keys remain, each in its declared shape. Every supplied value is kept as given, and every declared key missing from the input holds the rule's default. |
| `Schemas.UndeclaredKeyDropped` | src/commands/seal.ts:9-12 | A key the schema does not declare is absent from the validated options. |
| `Command.CommandName` | src/lib/command.ts:23 | The command name is the declaration up to the first space, and contains no space. |
| `Command.DeclarationRoundTrip` | src/lib/command.ts:23-24 | A declaration `name spec`, with a spaceless name and a spec without outer whitespace, splits back into that name and that spec. |
| `Command.BareDeclaration` | src/lib/command.ts:23-29 | A declaration with no space is the whole name and declares no arguments. |
| `Command.ArgumentNames` | src/lib/command.ts:27-29 | One argument name is declared per non-empty space-separated token of the argument spec. |
| `Command.CamelCase` | src/lib/command.ts:44 | Camel-casing never lengthens a name. Its content is fixed by `Command.CamelCaseDropsDashes` and `Command.CamelCaseRoundTrip`: the result of a kebab-case name has no `-`, and kebab-casing it gives the name back. |
| `Command.CamelCaseDropsDashes` | src/lib/command.ts:44 | In a kebab-case name every `-` is followed by a word character, so camel-casing removes every `-`. |
| `Command.SecretsPathKey` | src/lib/command.ts:44 | The declared argument `secrets-path` is bound under the key `secretsPath`, the key the push and remove schemas declare. |
| `Command.CamelCaseWithoutDash` | src/lib/command.ts:44 | A name without `-` is unchanged. |
| `Command.KebabCase` | src/lib/command.ts:44 | The inverse conversion, which turns each upper-case letter into `-` and its lower-case form, never shortens a name. |
| `Command.CamelCaseRoundTrip` | src/lib/command.ts:44 | For a lower-case kebab name, converting back after camel-casing gives the original name. |
| `Command.CamelCaseInjective` | src/lib/command.ts:42-46 | Two different kebab names never camel-case to the same key, so distinct arguments never overwrite each other. |
| `Command.ArgKeysSpec` | src/lib/command.ts:42-46 | A key is bound by the arguments exactly when it is the camel-cased name of some declared argument. |
| `Command.ParsedArgs` | src/lib/command.ts:42-46 | The keys of the argument record are exactly the camel-cased argument names. |
| `Command.ParsedArgsBinds` | src/lib/command.ts:42-46 | The last argument with a given key binds that key to the value received in its position. |
| `Command.MergePrecedence` | src/lib/command.ts:49 | In the merged input a positional argument wins over a received option, which wins over the command's own option value. |
| `Command.MissingArgumentHidesOption` | src/lib/command.ts:42-49 | A declared argument that received no value still hides an option of the same key, which reads as absent. |
| `Command.Dispatch` | src/lib/command.ts:48-77 | A validation error is thrown before any client work. A command needing no client runs its action on the options alone. For one that needs a client, a credential failure is thrown before any backend call. A command taking a client in any state runs its action on the client bound to the resolved credentials, with no status query. For one needing an unsealed backend, a status error is thrown after the one status query. |
| `Command.NoClientIgnoresBackend` | src/lib/command.ts:54-57 | A command that needs no client behaves the same whatever the profile store and the backend state. |
| `Command.AnyStateIgnoresSealStatus` | src/lib/command.ts:59-66 | A command that takes a client in any state behaves the same whatever the seal status. |
| `Command.DefaultNeedsUnsealed` | src/lib/command.ts:51 | An unspecified client need behaves exactly as an unsealed one. |
| `Command.SealedBackendBlocksAction` | src/lib/command.ts:69-71 | With an unsealed client needed, a sealed backend ends the run after the status query with the sealed error, and the action does not run. |
| `Command.UnsealedBackendRunsAction` | src/lib/command.ts:69-71 | With an unsealed backend, the run is the status query followed by the action on the client bound to the resolved credentials. |
| `UnsealCommand.Unseal` | src/commands/unseal.ts:20-31 | Options that fail validation are thrown with a validation error before anything else happens. Validated options run the action, and their shares are the positional shares, which override any `keys` option. |
| `UnsealCommand.WithPlaceholder` | src/commands/unseal.ts:32-35 | Credentials are resolved with the placeholder token and with the profile and endpoint as given. |
| `UnsealCommand.EndpointAloneReachesBackend` | src/commands/unseal.ts:32-42 | An endpoint URL with no profile and no token is enough to reach the status query. |
| `UnsealCommand.UnsealAction` | src/commands/unseal.ts:32-104 | A credential failure is thrown with no backend call. A status error is thrown right after the one status query. An already unsealed backend is reported with exit code 0 after the status query alone. Exit code 1 happens exactly when the backend is sealed and the threshold exceeds the share count. Standard input is read exactly when the backend is sealed and `--stdin` is set. |
| `UnsealCommand.NothingSubmittedWithoutNeed` | src/commands/unseal.ts:48-84 | An already unsealed backend, or fewer shares than the threshold, means no share is submitted. |
| `UnsealCommand.NormaliseStdin` | src/commands/unseal.ts:68-75 | Every share read from standard input is non-empty and holds no space or tab. |
| `UnsealCommand.NormaliseKeepsText` | src/commands/unseal.ts:68-75 | The shares, concatenated in order, are the input with its line ending removed and every space and tab deleted. |
| `UnsealCommand.UnterminatedLine` | src/commands/unseal.ts:69-71 | A line ending of none, `\n` or `\r\n` is removed and nothing else. |
| `UnsealCommand.ReadsLine` | src/commands/unseal.ts:68-75 | A tab-free line with any of those endings reads as its non-empty space-separated parts. |
| `UnsealCommand.NormaliseRoundTrip` | src/commands/unseal.ts:68-75 | Shares written on one line separated by spaces read back as exactly those shares. |
| `UnsealCommand.LineBreakDoesNotSeparate` | src/commands/unseal.ts:68-75 | Two shares on two lines read as a single share containing the line break. |
| `UnsealCommand.SubmitFrom` | src/commands/unseal.ts:90-101 | Shares are sent in order, at most all of them. Every reply before the last one sent continued. Stopping early happens right after the first reply that is an error, reports unsealed, or reports no progress. The error, if any, is that of the last reply. |
| `UnsealCommand.SubmitLoop` | src/commands/unseal.ts:90-104 | The loop only submits shares and reports success. It fails exactly when a reply was an error, and then reports no success. Every other end, including the early stop on an unsealed reply or progress 0, exits with code 0 and ends with "Vault unsealed.". |
| `UnsealCommand.SubmitLoopShares` | src/commands/unseal.ts:90-101 | The shares the loop submits are exactly the leading shares it got through. |
| `UnsealCommand.SubmittedSharesOfRun` | src/commands/unseal.ts:48-101 | The whole command submits the leading shares the loop got through when the loop runs, and none otherwise. |
| `UnsealCommand.SubmitsLeadingShares` | src/commands/unseal.ts:79-98 | What is submitted is a prefix of the shares, only for a sealed backend with enough shares, and no share is sent after a reply that stops the loop. |
| `UnsealCommand.LoopRunsOutOfShares` | src/commands/unseal.ts:90-103 | When no reply stops the loop, every share is submitted once, in order, and success is reported with exit code 0. |
| `UnsealCommand.SuccessReportedWhenSharesRunOut` | src/commands/unseal.ts:90-103 | Success is reported when the shares run out, even if the backend never said it was unsealed. |
| `SealCommand.Seal` | src/commands/seal.ts:20-39 | The status is queried first and a status error is thrown. An already sealed backend exits with code 0 and no seal call. Otherwise exactly one seal call is made and the exit code is 0. |
| `SealCommand.SealTwiceSealsOnce` | src/commands/seal.ts:20-37 | A second run asked about the state the first run left behind finds the backend sealed and makes no seal call. Over both runs one seal call is made exactly when the backend started unsealed. |
| `SealCommand.AsWrittenEndpointUnusable` | src/commands/seal.ts:9-12 | With the schema as written and no profile named, the command fails with missing credentials and makes no backend call, whatever the invocation carried. |
| `SealCommand.EndpointAndTokenReachAction` | src/commands/seal.ts:9-19 | With the token declared, an endpoint and a token with no profile run the seal action. |
| `MountCommand.Mount` | src/commands/mount.ts:23-49 | The engine check comes first. An existing engine exits with code 1 and no mount call. Otherwise exactly one `kv-v2` mount at the path is requested, and its error is thrown. The exit code is 0 exactly when no engine existed and the mount succeeded. |
| `MountCommand.ExistingEngineUntouched` | src/commands/mount.ts:26-30 | With an engine already there, the mount reply is irrelevant and no mount call is made. |
| `MakeProfileCommand.MakeProfile` | src/commands/make-profile.ts:29-62 | The exit code is always 0. A prompt happens exactly for an existing name without `--force`. A declined prompt only prompts and aborts. In every other case the profile `{endpointUrl, token}` is written. |
| `MakeProfileCommand.MakeProfileStore` | src/commands/make-profile.ts:34-57 | The resulting store is unchanged after a declined overwrite, and otherwise equals storing the new profile under the name. |
| `MakeProfileCommand.NewProfileNeedsNoPrompt` | src/commands/make-profile.ts:34-37 | A new name is stored at once, with no prompt. |
| `PushCommand.Asked` | src/commands/push.ts:45-61 | Before the env file is read, nothing is written and nothing is read from the file. |
| `PushCommand.Push` | src/commands/push.ts:42-89 | The check of the absolute working directory comes first, and an inaccessible directory is thrown before anything else, with the error naming the directory as given. The run fails exactly then, or when the run proceeds with secrets and an invalid reference. Every exit code is 0. |
| `PushCommand.PushAsksOnlyOnConflict` | src/commands/push.ts:48-49 | The user is asked exactly when not forced and the path exists. The existence check happens exactly when not forced. |
| `PushCommand.PushReadsOnlyWhenProceeding` | src/commands/push.ts:48-63 | The env file is read exactly when the directory exists and the run gets past the prompt. |
| `PushCommand.PushWritesOnce` | src/commands/push.ts:63-80 | Exactly one write happens when the directory exists, the user did not decline, the file had entries and the reference is valid. Otherwise none happens. |
| `PushCommand.PushWritesParsedEntries` | src/commands/push.ts:75-80 | Any write carries exactly the parsed entries, to the mount and path the reference names. |
| `PushCommand.ForceNeverAsks` | src/commands/push.ts:48 | With `--force` there is no existence check and no prompt. |
| `PushCommand.DeclinedOverwriteWritesNothing` | src/commands/push.ts:48-61 | A declined overwrite runs only the checks and the prompt, then aborts with exit code 0 before the file is read. |
| `PushCommand.InvalidReferenceRejectedLate` | src/commands/push.ts:48-75 | An invalid reference is rejected only after the existence check, the prompt and the file read. |
| `PullCommand.PullWith` | src/commands/pull.ts:40-43 | Options that fail validation are thrown with a validation error before anything else happens. Validated options run the action, and their secret path is the positional one, which overrides any `vaultPath` option. |
| `PullCommand.ValidatedFormatIsKnown` | src/commands/pull.ts:22 | A validated format is `dotenv` or `json`, so the empty-text fallback of the formatter is never reached. |
| `PullCommand.PullAction` | src/commands/pull.ts:45-60 | The directory check comes first. An inaccessible directory exits with code 1 before credentials are resolved. A credential failure is thrown right after the check. Once credentials resolve, the run is the directory check followed by the fetch on the validated path, env path, format and force flag, against the absolute working directory. |
| `PullCommand.PullDefaults` | src/commands/pull.ts:21-23 | Validation fills in `.env` for a missing env path, dotenv for a missing format and no forcing for a missing force flag. Such a run writes `.env` unless the file exists and the overwrite is declined. |
| `PullCommand.Retrieve` | src/commands/pull.ts:67-141 | The existence check comes first. A missing path exits with code 1 right after it, with no read, and the secret is read exactly when the path exists. A reply with no secret or no data exits with code 1 and writes no file. The run fails only when the reply holds data and the file write is rejected. |
| `PullCommand.Fetch` | src/commands/pull.ts:60-141 | The status query comes first, and a status error is thrown right after it. Otherwise the run fails only when the backend is unsealed, the reply holds data and the file write is rejected. The existence check happens exactly when the backend reports itself unsealed. A sealed backend, a missing path, or a reply with no secret or no data exits with code 1 and writes no file. |
| `PullCommand.AsWrittenStatusIgnored` | src/commands/pull.ts:60-67 | Reading `sealed` off the reply wrapper, the existence check always follows the status query. A status error is never thrown: the run fails only by a rejected file write. |
| `PullCommand.Deliver` | src/commands/pull.ts:109-141 | An empty env path prints the formatted text, or the entries when the text is empty, and exits with code 0. Otherwise, unless forced, the target file is checked and an existing one is asked about. A declined overwrite exits with code 1. Any file write goes to the resolved path with the formatted text. A rejected write is thrown, and success is reported exactly when the write happened and was not rejected. |
| `PullCommand.DeliverWritesOnce` | src/commands/pull.ts:121-141 | Exactly one file write happens when an env path is given and the user did not decline. Otherwise none happens. |
| `PullCommand.ForceNeverAsks` | src/commands/pull.ts:121-141 | With `--force` the user is never asked, and the exit code is 0 unless a write was attempted and rejected, in which case the rejection is thrown. |
| `PullCommand.WritesOnlyAfterSuccessfulRead` | src/commands/pull.ts:45-141 | A file is written only when the directory exists, credentials resolve, the backend is unsealed, and the path exists and holds data. The content is that data formatted. |
| `PullCommand.RetrieveWritesOnlyAfterRead` | src/commands/pull.ts:67-141 | From the path check on, a file write implies an existing path and a secret with data, and carries that data formatted. |
| `PullCommand.FetchWritesOnlyAfterRead` | src/commands/pull.ts:60-141 | From the status query on, a file write implies an unsealed backend, an existing path and a secret with data, and carries that data formatted. |
| `PullCommand.DotenvRoundTrip` | src/commands/pull.ts:100-103 | Dotenv text of entries with non-empty keys free of `=` and line breaks, and values free of line breaks, reads back as exactly those entries in order. |
| `PullCommand.WrittenDotenvReadsBack` | src/commands/pull.ts:97-141 | A dotenv file the command writes reads back as the secret's entries. |
| `PullCommand.AsWrittenProfileIgnored` | src/commands/pull.ts:15-24 | With the schema as written, `-P name` with no endpoint and token fails with missing credentials even when the profile is stored. |
| `PullCommand.ProfileReachesBackend` | src/commands/pull.ts:29-60 | With the profile declared under its own name, the stored profile is used and the run reaches the status query. |
| `RemoveCommand.FirstNaN` | src/commands/remove.ts:64-70 | There is no failing position exactly when every version parses. Otherwise the result is the first one that does not, and all before it parse. |
| `RemoveCommand.VersionNumbers` | src/commands/remove.ts:76 | Filtering NaN keeps order. When every version parses, the numbers are exactly the parsed versions, position by position. |
| `RemoveCommand.Removal` | src/commands/remove.ts:31-83 | The existence check comes first. A prompt happens exactly for an existing path without `--force`. Every exit code is 0. The run fails exactly when it gets past the prompt and then meets an invalid reference or a version that is NaN. |
| `RemoveCommand.RemovalDeletesOnce` | src/commands/remove.ts:62-83 | Exactly one delete happens when the path exists, the user agreed or forced, the reference is valid and no version is NaN. Otherwise none happens. That delete removes the parsed versions, or the metadata when no version was given. |
| `RemoveCommand.RemoveDeletesOnce` | src/commands/remove.ts:62-83 | The same, for versions as typed. |
| `RemoveCommand.InvalidVersionDeletesNothing` | src/commands/remove.ts:64-70 | A NaN version makes the command throw an error naming the first such version, with no delete. |
| `RemoveCommand.DecimalVersionsRoundTrip` | src/commands/remove.ts:73-77 | Versions written in decimal are deleted as exactly those numbers, in order. |
| `Numbers.ParseInt` | src/commands/remove.ts:66 | The result is NaN exactly when no digit follows the optional whitespace, sign and prefix. It is negative only after a `-`. Its value is the exact value of the digit prefix, negated after a `-`; the rounding of large values is left out. |
| `Numbers.DecimalRoundTrip` | src/commands/remove.ts:76 | The decimal text of a number parses back to that number. |
| `Numbers.TrailingTextIgnored` | src/commands/remove.ts:66 | Text after the digits that does not start with a digit or `x` is ignored: `3abc` parses as 3. |
| `Numbers.NoDigitIsNaN` | src/commands/remove.ts:66 | Text with no decimal digit is NaN. |
| `Strings.Split` | src/commands/unseal.ts:74 | Splitting gives at least one part, and no part contains the separator. |
| `Strings.JoinSplit` | src/commands/pull.ts:101-103 | Joining the parts of a split restores the text. |
| `Strings.SplitJoin` | src/commands/pull.ts:101-103 | Splitting a join of separator-free parts gives back those parts. |
| `Strings.Trim` | src/lib/command.ts:24 | Trimming leaves no outer whitespace and keeps text without outer whitespace unchanged. |
| `Strings.StripSuffix` | src/commands/unseal.ts:69-71 | A present suffix is removed exactly once. Otherwise the text is unchanged. |
| `Strings.ReplaceAll` | src/commands/unseal.ts:72 | Each tab becomes a space and every other character stays. |
| `Strings.SegmentsIgnoreRuns` | src/commands/unseal.ts:73-75 | Collapsing runs of spaces does not change the non-empty parts. |

## Left out

- File-system and process I/O are parameters: the credentials file and its TOML encoding (`src/lib/credentials.ts`), `fsAccess`, `path.resolve`, reading standard input, and writing files.
- dotenv parsing of the env file (`push`) is its parsed result. `JSON.stringify` (`pull`) is a rendering function passed in.
- `doesSecretPathExist` and `hasEngine` are their boolean answers. Prompts are the user's answers.
- The replies to the KV write, the deletes and the seal call are not inspected by the source, so they are not modelled. The `pull` file write is different: a rejected write is thrown, and `PullWorld.writeError` carries that rejection.
- The pull status call is taken to report the sealed flag, or an error (`PullCommand.Fetch`). The code as written reads the flag off the reply wrapper instead; that reading is `PullCommand.FetchAsWritten`, recorded under Findings.
- `pipe` and `unmount`, command-line wiring (commander option declarations, environment-variable fallbacks, `src/index.ts`, `src/cli.ts`), logging, spinners and colours are not part of this model. Messages are kept as tags, not text.
- commander's own argument parsing (variadic and optional arguments, option defaults) is out of scope. The model starts from what commander hands to the action: the command's options, the received options and the positional values.
- `handleError`: every thrown error becomes a `Failed` outcome. The process exit, and the rethrow under test, are not modelled.
- The order of a secret's entries is the order the backend lists them in. The JavaScript rules for the order of object keys are not modelled.
- Whitespace in `trim` and `parseInt` is the ASCII set plus the no-break space and the byte-order mark. Other Unicode space characters and line separators are not included.
- Credentials are strings. A non-string truthy value for the endpoint or token is not modelled.
- `Vault.LeadingSlashIgnored`: covers only references that already contain a `/`. `secret` is rejected but `/secret` has a `/`, so the two cannot read the same.
- `Vault.TrailingSlashIgnored`: the same restriction, for the same reason.
- `Helpers.ResolvedIsStoredOrSupplied`: covers only string or absent endpoint and token options, since other values are not credentials.
- `parseInt` with an explicit radix is not used by the program and is not modelled.
- Numbers.ParseInt: returns the exact integer. JavaScript's `parseInt` returns a double, so above 2^53 it rounds (`9007199254740993` gives 9007199254740992), and a long enough digit run gives `Infinity`, which `isNaN` lets through. Version numbers that large are not meaningful to the backend, and modelling IEEE 754 rounding would dwarf the rest of the model.
- RemoveCommand.Removal: inherits the exact integers of `Numbers.ParseInt`. A version above 2^53 is sent exactly here, where the program sends a rounded double or `Infinity`.
- RemoveCommand.RemovalDeletesOnce: the same; the versions in the delete are exact integers.
- RemoveCommand.RemoveDeletesOnce: the same.
- RemoveCommand.VersionNumbers: the same.
- RemoveCommand.DecimalVersionsRoundTrip: the same; above 2^53 the program would not send back the number typed.
- Numbers.DecimalRoundTrip: the same; above 2^53 `parseInt` does not give back the number.
- Numbers.TrailingTextIgnored: the same.

## Findings

| source | as written | input that shows it | evidently intended | confidence | as-written member | corrected member |
|---|---|---|---|---|---|---|
| src/commands/seal.ts:9-12 | The options schema declares `profile` and `endpointUrl` but no `token`, so validation strips any token that reaches it. The command also declares no `--token` option, so none can be given. | `seal --endpoint-url http://vault:8200` with no profile fails with "Please provide a profile or endpoint url and token." before any backend call. | An endpoint URL and a token reach the seal action, as in every other command that needs a client. | not executed; medium | `SealCommand.AsWrittenEndpointUnusable` | `SealCommand.EndpointAndTokenReachAction` |
| src/commands/pull.ts:15-24 | The options schema declares `name` where the option is called `profile`, so validation strips the profile the user chose. | `pull -P dev secret/app` with profile `dev` stored and no endpoint or token fails with "Please provide a profile or endpoint url and token." | The named profile is used to reach the backend. | not executed; high | `PullCommand.AsWrittenProfileIgnored` | `PullCommand.ProfileReachesBackend` |
| src/commands/pull.ts:60-65 | `vc.status()` is read as if it returned the status, but the client's calls answer with a wrapper holding `data` and `error`, as every other call site destructures it (`src/commands/unseal.ts:42`, `src/lib/helpers.ts:42`, `src/commands/seal.ts:21`). `status.sealed` is then undefined. Those sites call `vc.sealStatus()`, whereas this one calls `vc.status()`, a different method whose reply shape the shown source does not pin down. | `pull secret/app` against a sealed backend goes on to the existence check instead of stopping with "Vault is sealed"; a status error is never reported. | A sealed backend ends the run with exit code 1 before the existence check, and a status error is thrown. | not executed; medium (the client library is not shown) | `PullCommand.AsWrittenStatusIgnored` | `PullCommand.Fetch` |

=== FILE: command.dfy ===
/** The command base (`BaseCommand` in src/lib/command.ts): how a command
    declaration such as `push <env-file> <secrets-path>` is split into a name
    and argument specification, how positional arguments are renamed to
    camel case and merged over the options, and how the merged options are
    validated and handed to the action together with the client the command
    asks for. */
module Command {
  import opened Wrappers
  import opened Strings
  import opened Types
  import opened Records
  import opened Schemas
  import opened Profiles
  import opened Helpers

  /** `declaration.split(' ')[0]`: the command name, up to the first space. */
  function CommandName(declaration: string): (name: string)
    ensures ' ' !in name
    ensures |name| <= |declaration| && declaration[..|name|] == name
    ensures |name| < |declaration| ==> declaration[|name|] == ' '
  {
    var name := Split(declaration, ' ')[0];
    PrefixOfSplit(declaration, ' ');
    name
  }

  /** The first part of a split is a prefix, ended by the separator or by
      the end of the string. */
  lemma {:induction false} PrefixOfSplit(s: string, sep: char)
    ensures |Split(s, sep)[0]| <= |s| && s[..|Split(s, sep)[0]|] == Split(s, sep)[0]
    ensures |Split(s, sep)[0]| < |s| ==> s[|Split(s, sep)[0]|] == sep
    decreases |s|
  {
    if |s| > 0 && s[0] != sep {
      PrefixOfSplit(s[1..], sep);
      var first := Split(s[1..], sep)[0];
      assert Split(s, sep)[0] == [s[0]] + first;
      assert s[..|first| + 1] == [s[0]] + s[1..][..|first|];
    }
  }

  /** `declaration.substring(name.length).trim()`: the argument
      specification after the name. */
  function ArgumentSpec(declaration: string): string
  {
    Trim(declaration[|CommandName(declaration)|..])
  }

  /** A declaration written as a name, one space and a specification with no
      white space at either end splits back into that name and
      specification. */
  lemma DeclarationRoundTrip(name: string, spec: string)
    requires ' ' !in name
    requires spec == "" || (!IsWhitespace(spec[0]) && !IsWhitespace(spec[|spec| - 1]))
    ensures CommandName(name + " " + spec) == name
    ensures ArgumentSpec(name + " " + spec) == spec
  {
    var d := name + " " + spec;
    SplitPrefix(name, " " + spec, ' ');
    assert " " + spec == [' '] + spec;
    SplitAfterSep(spec, ' ');
    assert name + "" == name;
    assert d == name + (" " + spec);
    assert d[|name|..] == " " + spec;
    assert TrimStart(" " + spec) == TrimStart(spec);
  }

  /** A declaration with no space is a bare name with no arguments. */
  lemma BareDeclaration(declaration: string)
    requires ' ' !in declaration
    ensures CommandName(declaration) == declaration
    ensures ArgumentSpec(declaration) == ""
  {
    SplitJoin([declaration], ' ');
  }

  /** The name commander gives an argument declared as `<name>`, `[name]`,
      `<name...>` or `[name...]`: brackets and a variadic `...` removed. */
  function ArgumentName(token: string): string
  {
    var inner := if |token| >= 2 && (token[0] == '<' || token[0] == '[') then token[1..|token| - 1] else token;
    if |inner| > 3 && inner[|inner| - 3..] == "..." then inner[..|inner| - 3] else inner
  }

  /** The registered argument names of a declaration, in order; `.arguments`
      splits the specification on runs of spaces. */
  function ArgumentNames(declaration: string): (names: seq<string>)
    ensures |names| == |Segments(ArgumentSpec(declaration), ' ')|
  {
    var tokens := Segments(ArgumentSpec(declaration), ' ');
    seq(|tokens|, i requires 0 <= i < |tokens| => ArgumentName(tokens[i]))
  }

  /** `\w` in a JavaScript regular expression. */
  predicate IsWordChar(c: char)
  {
    'a' <= c <= 'z' || 'A' <= c <= 'Z' || '0' <= c <= '9' || c == '_'
  }

  predicate IsLower(c: char) { 'a' <= c <= 'z' }

  predicate IsUpper(c: char) { 'A' <= c <= 'Z' }

  /** `toUpperCase` on a word character. */
  function ToUpper(c: char): char
  {
    if IsLower(c) then (c as int - 32) as char else c
  }

  function ToLower(c: char): char
  {
    if IsUpper(c) then (c as int + 32) as char else c
  }

  /** `name.replace(/-(\w)/g, (_, c) => c.toUpperCase())`: each `-` that is
      followed by a word character is dropped and that character upper-cased,
      scanning left to right without overlap. */
  function CamelCase(s: string): (r: string)
    ensures |r| <= |s|
    decreases |s|
  {
    if |s| == 0 then ""
    else if s[0] == '-' && |s| > 1 && IsWordChar(s[1]) then [ToUpper(s[1])] + CamelCase(s[2..])
    else [s[0]] + CamelCase(s[1..])
  }

  /** Camel-casing a kebab-case name leaves no `-`: every dash is followed
      by a lower-case letter, which it is folded into. */
  lemma {:induction false} CamelCaseDropsDashes(s: string)
    requires IsKebab(s)
    ensures '-' !in CamelCase(s)
    decreases |s|
  {
    if |s| > 0 {
      if s[0] == '-' {
        assert IsLower(s[1]) && IsKebab(s[2..]);
        CamelCaseDropsDashes(s[2..]);
        assert CamelCase(s) == [ToUpper(s[1])] + CamelCase(s[2..]);
      } else {
        assert IsKebab(s[1..]);
        CamelCaseDropsDashes(s[1..]);
        assert CamelCase(s) == [s[0]] + CamelCase(s[1..]);
      }
    }
  }

  /** The declared argument `secrets-path` becomes the key `secretsPath`. */
  lemma SecretsPathKey()
    ensures CamelCase("secrets-path") == "secretsPath"
  {
    var dashed := "-path";
    assert '-' !in "ath";
    CamelCaseWithoutDash("ath");
    assert dashed[0] == '-' && IsWordChar(dashed[1]) && dashed[2..] == "ath";
    assert CamelCase(dashed) == "Path";
    assert "secrets-path" == "secrets" + dashed;
    CamelCaseWithoutDashPrefix("secrets", dashed);
    assert "secrets" + "Path" == "secretsPath";
  }

  /** A dash-free prefix is kept as it is in front of the rest's renaming. */
  lemma {:induction false} CamelCaseWithoutDashPrefix(p: string, rest: string)
    requires '-' !in p
    ensures CamelCase(p + rest) == p + CamelCase(rest)
    decreases |p|
  {
    var s := p + rest;
    if |p| == 0 {
      assert s == rest;
    } else {
      assert p == [p[0]] + p[1..];
      assert s[0] == p[0] != '-' && s[1..] == p[1..] + rest;
      assert CamelCase(s) == [p[0]] + CamelCase(p[1..] + rest);
      CamelCaseWithoutDashPrefix(p[1..], rest);
    }
  }

  /** A name without `-` is left as it is. */
  lemma {:induction false} CamelCaseWithoutDash(s: string)
    requires '-' !in s
    ensures CamelCase(s) == s
    decreases |s|
  {
    if |s| > 0 {
      CamelCaseWithoutDash(s[1..]);
    }
  }

  /** Kebab-case names as the declarations use them: lower-case letters,
      digits and `-`, each `-` followed by a lower-case letter. */
  predicate IsKebab(s: string)
  {
    (forall i :: 0 <= i < |s| ==> IsLower(s[i]) || '0' <= s[i] <= '9' || s[i] == '-')
    && (forall i :: 0 <= i < |s| && s[i] == '-' ==> i + 1 < |s| && IsLower(s[i + 1]))
  }

  /** The inverse renaming: each upper-case letter becomes `-` and its
      lower-case form. */
  function KebabCase(s: string): (r: string)
    ensures |r| >= |s|
    decreases |s|
  {
    if |s| == 0 then ""
    else if IsUpper(s[0]) then ['-', ToLower(s[0])] + KebabCase(s[1..])
    else [s[0]] + KebabCase(s[1..])
  }

  /** Camel-casing a kebab-case name loses nothing: kebab-casing the result
      gives the name back, so distinct argument names get distinct keys. */
  lemma {:induction false} CamelCaseRoundTrip(s: string)
    requires IsKebab(s)
    ensures KebabCase(CamelCase(s)) == s
    decreases |s|
  {
    if |s| > 0 {
      if s[0] == '-' {
        assert IsLower(s[1]) && IsKebab(s[2..]);
        CamelCaseRoundTrip(s[2..]);
        KebabCons(ToUpper(s[1]), CamelCase(s[2..]));
        assert s == ['-', s[1]] + s[2..];
      } else {
        assert !IsUpper(s[0]) && IsKebab(s[1..]);
        CamelCaseRoundTrip(s[1..]);
        KebabCons(s[0], CamelCase(s[1..]));
        assert s == [s[0]] + s[1..];
      }
    }
  }

  /** One step of `KebabCase`. */
  lemma KebabCons(c: char, rest: string)
    ensures KebabCase([c] + rest) == (if IsUpper(c) then ['-', ToLower(c)] else [c]) + KebabCase(rest)
  {
    assert ([c] + rest)[1..] == rest;
  }

  /** Distinct kebab-case names get distinct keys. */
  lemma CamelCaseInjective(a: string, b: string)
    requires IsKebab(a) && IsKebab(b) && a != b
    ensures CamelCase(a) != CamelCase(b)
  {
    CamelCaseRoundTrip(a);
    CamelCaseRoundTrip(b);
  }

  /** The value commander passes for the `i`-th argument; `undefined` when
      fewer arguments were received. */
  function ArgAt(received: seq<Value>, i: nat): Value
  {
    if i < |received| then received[i] else Absent
  }

  /** Whether no later argument than the `i`-th has the same key. */
  predicate LastWithKey(names: seq<string>, i: nat)
    requires i < |names|
  {
    forall j :: i < j < |names| ==> CamelCase(names[j]) != CamelCase(names[i])
  }

  /** The keys of the arguments, in camel case. */
  function ArgKeys(names: seq<string>): set<string>
    decreases |names|
  {
    if |names| == 0 then {} else ArgKeys(names[..|names| - 1]) + {CamelCase(names[|names| - 1])}
  }

  /** A key is an argument key exactly when some argument camel-cases to
      it. */
  lemma {:induction false} ArgKeysSpec(names: seq<string>, k: string)
    ensures k in ArgKeys(names) <==> exists i :: 0 <= i < |names| && CamelCase(names[i]) == k
    decreases |names|
  {
    if |names| > 0 {
      var n := |names| - 1;
      ArgKeysSpec(names[..n], k);
      assert forall i :: 0 <= i < n ==> names[..n][i] == names[i];
      if k in ArgKeys(names[..n]) {
        var i :| 0 <= i < n && CamelCase(names[..n][i]) == k;
        assert CamelCase(names[i]) == k;
      }
    }
  }

  /** The `parsedArgs` object: each registered argument, under its camel-case
      name, bound to the value received at its position (a missing one to
      `undefined`); a later argument with the same key wins. It holds the
      argument keys and nothing else. */
  function ParsedArgs(names: seq<string>, received: seq<Value>): (r: Record)
    ensures r.Keys == ArgKeys(names)
    decreases |names|
  {
    if |names| == 0 then map[]
    else
      var n := |names| - 1;
      ParsedArgs(names[..n], received)[CamelCase(names[n]) := ArgAt(received, n)]
  }

  /** Each argument's key holds the value received at its position, unless
      a later argument has the same key. */
  lemma {:induction false} ParsedArgsBinds(names: seq<string>, received: seq<Value>, i: nat)
    requires i < |names| && LastWithKey(names, i)
    ensures CamelCase(names[i]) in ParsedArgs(names, received)
            && ParsedArgs(names, received)[CamelCase(names[i])] == ArgAt(received, i)
    decreases |names|
  {
    var n := |names| - 1;
    var earlier := ParsedArgs(names[..n], received);
    assert ParsedArgs(names, received) == earlier[CamelCase(names[n]) := ArgAt(received, n)];
    if i < n {
      assert names[..n][i] == names[i];
      assert LastWithKey(names[..n], i) by {
        forall j | i < j < n ensures CamelCase(names[..n][j]) != CamelCase(names[..n][i]) {
          assert names[..n][j] == names[j];
        }
      }
      ParsedArgsBinds(names[..n], received, i);
      assert CamelCase(names[n]) != CamelCase(names[i]);
    }
  }

  /** One invocation as commander delivers it to the action callback. */
  datatype Invocation = Invocation(commandOpts: Record, receivedOpts: Record, receivedArgs: seq<Value>)

  /** `{ ...command.opts(), ...receivedOpts, ...parsedArgs }`. */
  function Merge(inv: Invocation, names: seq<string>): Record
  {
    Spread(Spread(inv.commandOpts, inv.receivedOpts), ParsedArgs(names, inv.receivedArgs))
  }

  /** Positional arguments beat received options, which beat the command's
      stored options. */
  lemma MergePrecedence(inv: Invocation, names: seq<string>, key: string)
    ensures Get(Merge(inv, names), key)
         == if key in ParsedArgs(names, inv.receivedArgs) then ParsedArgs(names, inv.receivedArgs)[key]
            else if key in inv.receivedOpts then inv.receivedOpts[key]
            else Get(inv.commandOpts, key)
  {
  }

  /** A declared argument that was not received still occupies its key, as
      `undefined`, hiding any option of the same name. */
  lemma MissingArgumentHidesOption(inv: Invocation, names: seq<string>, i: nat)
    requires i < |names| && |inv.receivedArgs| <= i && LastWithKey(names, i)
    ensures Get(Merge(inv, names), CamelCase(names[i])) == Absent
  {
    ParsedArgsBinds(names, inv.receivedArgs, i);
  }

  /** What client a command's action is given. */
  datatype NeedsClient = NoClient | AnyState | Unsealed

  /** A command left unspecified needs an unsealed backend. */
  function EffectiveNeeds(needs: Option<NeedsClient>): NeedsClient
  {
    if needs.None? then Unsealed else needs.value
  }

  /** An action: what the command does with its options and client. */
  type Action = (Record, Option<Client>) -> Run

  datatype CommandSpec = CommandSpec(declaration: string, schema: Schema, needsClient: Option<NeedsClient>, action: Action)

  /** The validated options of an invocation. */
  function Options(cmd: CommandSpec, inv: Invocation): Result<Record, Error>
  {
    Parse(cmd.schema, Merge(inv, ArgumentNames(cmd.declaration)))
  }

  /** The action callback of `BaseCommand`: validation failures, credential
      failures and a refused backend end the run at the error boundary
      before the action runs; otherwise the action runs with the client the
      command asks for, after the one status query an unsealed client costs. */
  function Dispatch(cmd: CommandSpec, inv: Invocation, store: Store, status: Result<SealStatus, Error>): (r: Run)
    ensures Options(cmd, inv).Failure? ==> r == Run([], Failed(Options(cmd, inv).error))
    ensures Options(cmd, inv).Success? && EffectiveNeeds(cmd.needsClient) == NoClient ==>
              r == cmd.action(Options(cmd, inv).value, None)
    ensures Options(cmd, inv).Success? && EffectiveNeeds(cmd.needsClient) != NoClient
            && ResolveCredentials(Options(cmd, inv).value, store).Failure? ==>
              r == Run([], Failed(ResolveCredentials(Options(cmd, inv).value, store).error))
    ensures Options(cmd, inv).Success? && EffectiveNeeds(cmd.needsClient) == AnyState
            && ResolveCredentials(Options(cmd, inv).value, store).Success? ==>
              r == cmd.action(Options(cmd, inv).value,
                              Some(ClientFor(ResolveCredentials(Options(cmd, inv).value, store).value)))
    ensures Options(cmd, inv).Success? && EffectiveNeeds(cmd.needsClient) == Unsealed
            && ResolveCredentials(Options(cmd, inv).value, store).Success? && status.Failure? ==>
              r == Run([StatusQuery], Failed(status.error))
  {
    match Options(cmd, inv)
    case Failure(e) => Run([], Failed(e))
    case Success(options) =>
      match EffectiveNeeds(cmd.needsClient)
      case NoClient => cmd.action(options, None)
      case AnyState =>
        (match ResolveCredentials(options, store)
         case Failure(e) => Run([], Failed(e))
         case Success(credentials) => cmd.action(options, Some(ClientFor(credentials))))
      case Unsealed =>
        var guarded := GetUnsealedClient(options, store, status);
        match guarded.client
        case Failure(e) => Run(guarded.effects, Failed(e))
        case Success(vc) => After(guarded.effects, cmd.action(options, Some(vc)))
  }

  /** A command that needs no client never consults the profile store or
      the backend. */
  lemma NoClientIgnoresBackend(cmd: CommandSpec, inv: Invocation, s1: Store, s2: Store,
                               st1: Result<SealStatus, Error>, st2: Result<SealStatus, Error>)
    requires cmd.needsClient == Some(NoClient)
    ensures Dispatch(cmd, inv, s1, st1) == Dispatch(cmd, inv, s2, st2)
  {
  }

  /** A command that accepts any backend state, once its credentials
      resolve, is exactly its action on the client bound to them. */
  lemma AnyStateRunsAction(cmd: CommandSpec, inv: Invocation, store: Store, status: Result<SealStatus, Error>)
    requires EffectiveNeeds(cmd.needsClient) == AnyState
    requires Options(cmd, inv).Success? && ResolveCredentials(Options(cmd, inv).value, store).Success?
    ensures Dispatch(cmd, inv, store, status)
         == cmd.action(Options(cmd, inv).value, Some(ClientFor(ResolveCredentials(Options(cmd, inv).value, store).value)))
  {
  }

  /** A command that accepts any backend state gets its client without a
      status query: the seal status never matters. */
  lemma AnyStateIgnoresSealStatus(cmd: CommandSpec, inv: Invocation, store: Store,
                                  st1: Result<SealStatus, Error>, st2: Result<SealStatus, Error>)
    requires cmd.needsClient == Some(AnyState)
    ensures Dispatch(cmd, inv, store, st1) == Dispatch(cmd, inv, store, st2)
  {
  }

  /** An unspecified client need behaves exactly as `'unsealed'`. */
  lemma DefaultNeedsUnsealed(cmd: CommandSpec, inv: Invocation, store: Store, status: Result<SealStatus, Error>)
    requires cmd.needsClient.None?
    ensures Dispatch(cmd, inv, store, status)
         == Dispatch(cmd.(needsClient := Some(Unsealed)), inv, store, status)
  {
  }

  /** Against a sealed backend, a command needing an unsealed client stops
      after the status query, whatever its action would have done. */
  lemma SealedBackendBlocksAction(cmd: CommandSpec, inv: Invocation, store: Store, s: SealStatus)
    requires EffectiveNeeds(cmd.needsClient) == Unsealed && s.sealed
    requires Options(cmd, inv).Success? && ResolveCredentials(Options(cmd, inv).value, store).Success?
    ensures Dispatch(cmd, inv, store, Success(s)) == Run([StatusQuery], Failed(VaultIsSealed))
  {
  }

  /** Against an unsealed backend, the action runs with the client of the
      resolved credentials, after exactly one status query. */
  lemma UnsealedBackendRunsAction(cmd: CommandSpec, inv: Invocation, store: Store, s: SealStatus)
    requires EffectiveNeeds(cmd.needsClient) == Unsealed && !s.sealed
    requires Options(cmd, inv).Success? && ResolveCredentials(Options(cmd, inv).value, store).Success?
    ensures Dispatch(cmd, inv, store, Success(s))
         == After([StatusQuery], cmd.action(Options(cmd, inv).value,
                                            Some(ClientFor(ResolveCredentials(Options(cmd, inv).value, store).value))))
  {
  }
}

=== FILE: helpers.dfy ===
/** Credential resolution and the unsealed-client guard (src/lib/helpers.ts).
    Options are the parsed options of a command; the profile store and the
    backend's seal-status reply are parameters. */
module Helpers {
  import opened Wrappers
  import opened Types
  import opened Records
  import opened Profiles

  /** The `profile` option when it names a profile: a non-empty string. */
  function ProfileName(options: Record): (r: Option<string>)
    ensures r.Some? <==> Get(options, "profile").Str? && Get(options, "profile").str != ""
    ensures r.Some? ==> Get(options, "profile") == Str(r.value)
  {
    match Get(options, "profile")
    case Str(n) => if n != "" then Some(n) else None
    case _ => None
  }

  /** `getCredentialsFromOpts`: a named profile is looked up and, when it is
      missing, the call fails without falling back to an explicit endpoint
      and token; with no profile name, a truthy endpoint URL and token are
      used as given; anything else is missing credentials. */
  function ResolveCredentials(options: Record, store: Store): (r: Result<Profile, Error>)
    ensures ProfileName(options).Some? ==>
              r == (match GetProfile(store, ProfileName(options).value)
                    case Some(p) => Success(p)
                    case None => Failure(ProfileNotFound(ProfileName(options).value)))
    ensures ProfileName(options).None? && r.Success? ==>
              Truthy(Get(options, "endpointUrl")) && Truthy(Get(options, "token"))
              && r.value == Profile(StrOf(Get(options, "endpointUrl")), StrOf(Get(options, "token")))
    ensures ProfileName(options).None? && r.Failure? ==>
              r.error == MissingCredentials
              && !(Truthy(Get(options, "endpointUrl")) && Truthy(Get(options, "token")))
  {
    match ProfileName(options)
    case Some(name) =>
      if name in store then Success(store[name]) else Failure(ProfileNotFound(name))
    case None =>
      var endpointUrl, token := Get(options, "endpointUrl"), Get(options, "token");
      if Truthy(endpointUrl) && Truthy(token) then
        Success(Profile(StrOf(endpointUrl), StrOf(token)))
      else Failure(MissingCredentials)
  }

  /** A named profile makes the endpoint and token options irrelevant: the
      outcome is the same whatever they hold, so an unknown profile is never
      rescued by an explicit pair. */
  lemma NamedProfileShadowsPair(options: Record, store: Store, endpointUrl: Value, token: Value)
    requires ProfileName(options).Some?
    ensures ResolveCredentials(options["endpointUrl" := endpointUrl]["token" := token], store)
         == ResolveCredentials(options, store)
  {
    var o := options["endpointUrl" := endpointUrl]["token" := token];
    assert Get(o, "profile") == Get(options, "profile");
  }

  /** Whatever resolves is either a stored profile or exactly the endpoint
      and token the options carry; nothing is invented. Every command's
      schema makes both options strings or leaves them out. */
  lemma ResolvedIsStoredOrSupplied(options: Record, store: Store)
    requires Get(options, "endpointUrl").Str? || Get(options, "endpointUrl").Absent?
    requires Get(options, "token").Str? || Get(options, "token").Absent?
    requires ResolveCredentials(options, store).Success?
    ensures var p := ResolveCredentials(options, store).value;
            p in store.Values
            || (Get(options, "endpointUrl") == Str(p.endpointUrl) && Get(options, "token") == Str(p.token))
  {
    var p := ResolveCredentials(options, store).value;
    if ProfileName(options).Some? {
      assert store[ProfileName(options).value] == p;
    }
  }

  /** The client bound to resolved credentials. */
  function ClientFor(p: Profile): Client
  {
    Client(p.endpointUrl, p.token)
  }

  /** What `getUnsealedClient` did and produced: the backend calls it made
      and the client, or the error it threw. */
  datatype Guarded = Guarded(effects: seq<Effect>, client: Result<Client, Error>)

  /** `getUnsealedClient`: resolves credentials (failing with no backend
      call), asks the backend for its seal status once, passes a status
      error through unchanged, refuses a sealed backend, and otherwise
      returns the client bound to the resolved credentials. */
  function GetUnsealedClient(options: Record, store: Store, status: Result<SealStatus, Error>): (g: Guarded)
    ensures ResolveCredentials(options, store).Failure? ==>
              g == Guarded([], Failure(ResolveCredentials(options, store).error))
    ensures ResolveCredentials(options, store).Success? ==> g.effects == [StatusQuery]
    ensures g.client.Success? <==>
              ResolveCredentials(options, store).Success? && status.Success? && !status.value.sealed
    ensures g.client.Success? ==> g.client.value == ClientFor(ResolveCredentials(options, store).value)
    ensures ResolveCredentials(options, store).Success? && status.Failure? ==> g.client == Failure(status.error)
    ensures ResolveCredentials(options, store).Success? && status.Success? && status.value.sealed ==>
              g.client == Failure(VaultIsSealed)
  {
    match ResolveCredentials(options, store)
    case Failure(e) => Guarded([], Failure(e))
    case Success(credentials) =>
      match status
      case Failure(e) => Guarded([StatusQuery], Failure(e))
      case Success(s) =>
        if s.sealed then Guarded([StatusQuery], Failure(VaultIsSealed))
        else Guarded([StatusQuery], Success(ClientFor(credentials)))
  }

  /** `resolveAccessiblePath`: the absolute form of the path when it is
      accessible, otherwise the error naming the path as given. `absolute`
      stands for `path.resolve`; whether the absolute path is accessible is
      the file system's answer. */
  function ResolveAccessiblePath(p: string, absolute: string -> string, accessible: bool)
    : (r: Result<string, Error>)
    ensures r.Success? <==> accessible
    ensures r.Success? ==> r.value == absolute(p)
    ensures r.Failure? ==> r.error == PathDoesNotExist(p)
  {
    var resolved := absolute(p);
    if accessible then Success(resolved) else Failure(PathDoesNotExist(p))
  }
}

=== FILE: make-profile.dfy ===
/** The `make-profile` command (src/commands/make-profile.ts): stores an
    endpoint URL and token under a profile name, asking before it replaces
    an existing profile unless forced. It needs no client. The answer to
    the confirmation prompt is a parameter. */
module MakeProfileCommand {
  import opened Wrappers
  import opened Types
  import opened Records
  import opened Schemas
  import opened Profiles
  import opened Command

  const MakeProfileSchema: Schema := map[
    "name" := RequiredString, "endpointUrl" := RequiredString,
    "token" := RequiredString, "force" := RequiredBool]

  /** The action: prompts only when the profile exists and `force` is off;
      a declined prompt aborts with exit code 0 and writes nothing;
      otherwise the profile is written with exactly the given endpoint URL
      and token. */
  function MakeProfile(name: string, endpointUrl: string, token: string, force: bool,
                       store: Store, confirm: bool): (r: Run)
    ensures r.outcome == Exit(0)
    ensures Prompt in r.effects <==> name in store && !force
    ensures name in store && !force && !confirm ==> r.effects == [Prompt, Say(Aborting)]
    ensures !(name in store && !force && !confirm) ==>
              ProfileWrite(name, Profile(endpointUrl, token)) in r.effects
  {
    var existing := GetProfile(store, name);
    var asked := if existing.Some? && !force then [Prompt] else [];
    var overwrite := if existing.Some? && !force then confirm else force;
    if existing.Some? && !overwrite then Run(asked + [Say(Aborting)], Exit(0))
    else Run(asked + [ProfileWrite(name, Profile(endpointUrl, token)), Say(ProfileCreated)], Exit(0))
  }

  /** The store after a run: each profile write applied in order. */
  function StoreAfter(effects: seq<Effect>, store: Store): Store
    decreases |effects|
  {
    if |effects| == 0 then store
    else
      var next := match effects[0]
        case ProfileWrite(n, p) => SetProfile(store, n, p)
        case _ => store;
      StoreAfter(effects[1..], next)
  }

  /** The store a run leaves behind is the old store with the new profile
      set, or the old store unchanged when the user declined. */
  lemma MakeProfileStore(name: string, endpointUrl: string, token: string, force: bool,
                         store: Store, confirm: bool)
    ensures var after := StoreAfter(MakeProfile(name, endpointUrl, token, force, store, confirm).effects, store);
            if name in store && !force && !confirm then after == store
            else after == SetProfile(store, name, Profile(endpointUrl, token))
  {
    var r := MakeProfile(name, endpointUrl, token, force, store, confirm);
    var w := ProfileWrite(name, Profile(endpointUrl, token));
    var asked := if name in store && !force then [Prompt] else [];
    if name in store && !force && !confirm {
      StoreAfterNoWrites([Prompt, Say(Aborting)], store);
    } else {
      assert r.effects == asked + [w, Say(ProfileCreated)];
      StoreAfterAppend(asked, [w, Say(ProfileCreated)], store);
      StoreAfterNoWrites(asked, store);
      assert [w, Say(ProfileCreated)][1..] == [Say(ProfileCreated)];
      StoreAfterNoWrites([Say(ProfileCreated)], SetProfile(store, name, Profile(endpointUrl, token)));
    }
  }

  lemma {:induction false} StoreAfterAppend(a: seq<Effect>, b: seq<Effect>, store: Store)
    ensures StoreAfter(a + b, store) == StoreAfter(b, StoreAfter(a, store))
    decreases |a|
  {
    if |a| == 0 {
      assert a + b == b;
    } else {
      assert (a + b)[1..] == a[1..] + b;
      assert (a + b)[0] == a[0];
      var next := match a[0]
        case ProfileWrite(n, p) => SetProfile(store, n, p)
        case _ => store;
      StoreAfterAppend(a[1..], b, next);
    }
  }

  /** Effects that write no profile leave the store as it was. */
  lemma {:induction false} StoreAfterNoWrites(effects: seq<Effect>, store: Store)
    requires forall i :: 0 <= i < |effects| ==> !effects[i].ProfileWrite?
    ensures StoreAfter(effects, store) == store
    decreases |effects|
  {
    if |effects| > 0 {
      StoreAfterNoWrites(effects[1..], store);
    }
  }

  /** A profile that does not exist yet is created without a question. */
  lemma NewProfileNeedsNoPrompt(name: string, endpointUrl: string, token: string, force: bool,
                                store: Store, confirm: bool)
    requires name !in store
    ensures MakeProfile(name, endpointUrl, token, force, store, confirm)
         == Run([ProfileWrite(name, Profile(endpointUrl, token)), Say(ProfileCreated)], Exit(0))
  {
  }

  function MakeProfileSpec(store: Store, confirm: bool): CommandSpec
  {
    CommandSpec("make-profile <name>", MakeProfileSchema, Some(NoClient),
                (options, vc) => MakeProfile(StrOf(Get(options, "name")), StrOf(Get(options, "endpointUrl")),
                                             StrOf(Get(options, "token")), IsSet(Get(options, "force")),
                                             store, confirm))
  }
}

=== FILE: mount.dfy ===
/** The `mount` command (src/commands/mount.ts): mounts a KV version-2
    engine at a path unless one is already there. Whether an engine exists
    and the reply to the mount call are the backend's answers. */
module MountCommand {
  import opened Wrappers
  import opened Types
  import opened Schemas
  import opened Records
  import opened Command

  const MountSchema: Schema := map[
    "mountPath" := RequiredString, "profile" := OptionalString,
    "endpointUrl" := OptionalString, "token" := OptionalString]

  /** The engine type every mount asks for. */
  const EngineType: string := "kv-v2"

  predicate IsMountCall(e: Effect) { e.MountCall? }

  /** The action: an existing engine is reported with exit code 1 and no
      mount call; otherwise exactly one `kv-v2` mount at the path is asked
      for, and its error, if any, is thrown. */
  function Mount(mountPath: string, engineExists: bool, mountReply: Option<Error>): (r: Run)
    ensures |r.effects| >= 1 && r.effects[0] == EngineCheck(mountPath)
    ensures engineExists ==> r == Run([EngineCheck(mountPath), Say(EngineExists(mountPath))], Exit(1))
    ensures Count(r.effects, IsMountCall) == (if engineExists then 0 else 1)
    ensures !engineExists ==> r.effects[1] == MountCall(mountPath, EngineType)
    ensures !engineExists ==> (r.outcome.Failed? <==> mountReply.Some?)
    ensures !engineExists && mountReply.Some? ==> r.outcome == Failed(mountReply.value)
    ensures r.outcome == Exit(0) <==> !engineExists && mountReply.None?
  {
    if engineExists then Run([EngineCheck(mountPath), Say(EngineExists(mountPath))], Exit(1))
    else
      match mountReply
      case Some(e) => Run([EngineCheck(mountPath), MountCall(mountPath, EngineType)], Failed(e))
      case None =>
        var done := [Say(Mounted(mountPath))];
        CountCons(MountCall(mountPath, EngineType), done, IsMountCall);
        CountCons(EngineCheck(mountPath), [MountCall(mountPath, EngineType)] + done, IsMountCall);
        Run([EngineCheck(mountPath)] + ([MountCall(mountPath, EngineType)] + done), Exit(0))
  }

  /** The command, with the default (unsealed) client need. */
  function MountSpec(engineExists: bool, mountReply: Option<Error>): CommandSpec
  {
    CommandSpec("mount <mount-path>", MountSchema, None,
                (options, vc) => Mount(StrOf(Get(options, "mountPath")), engineExists, mountReply))
  }

  /** Mounting where an engine already exists never calls the backend's
      mount, whatever its reply would have been. */
  lemma ExistingEngineUntouched(mountPath: string, e1: Option<Error>, e2: Option<Error>)
    ensures Mount(mountPath, true, e1) == Mount(mountPath, true, e2)
    ensures Count(Mount(mountPath, true, e1).effects, IsMountCall) == 0
  {
  }
}

=== FILE: numbers.dfy ===
/** `parseInt(s)` with no radix, as the remove command uses it to read
    version numbers: leading white space is skipped, an optional sign is
    read, a `0x`/`0X` prefix selects base 16 (base 10 otherwise), and the
    longest run of digits of that base is read. No digit at all gives NaN,
    modelled as `None`. */
module Numbers {
  import opened Wrappers
  import opened Strings

  /** The value of `c` as a digit of `base` (10 or 16), if it is one. */
  function DigitValue(c: char, base: nat): (d: Option<nat>)
    ensures d.Some? ==> d.value < base
  {
    if '0' <= c <= '9' && (c as int - '0' as int) < base then Some(c as int - '0' as int)
    else if base == 16 && 'a' <= c <= 'f' then Some(c as int - 'a' as int + 10)
    else if base == 16 && 'A' <= c <= 'F' then Some(c as int - 'A' as int + 10)
    else None
  }

  predicate IsDigit(c: char, base: nat)
  {
    DigitValue(c, base).Some?
  }

  /** The longest prefix of `s` made of digits of `base`. */
  function DigitPrefix(s: string, base: nat): (p: string)
    ensures |p| <= |s| && s[..|p|] == p
    ensures forall i :: 0 <= i < |p| ==> IsDigit(p[i], base)
    ensures |p| < |s| ==> !IsDigit(s[|p|], base)
    decreases |s|
  {
    if |s| > 0 && IsDigit(s[0], base) then
      var rest := DigitPrefix(s[1..], base);
      assert s[..|rest| + 1] == [s[0]] + s[1..][..|rest|];
      [s[0]] + rest
    else ""
  }

  /** The number a string of digits denotes, most significant first, in
      base 16 or (for any other base) 10. */
  function DigitsValue(ds: string, base: nat): nat
    requires forall i :: 0 <= i < |ds| ==> IsDigit(ds[i], base)
    decreases |ds|
  {
    if |ds| == 0 then 0
    else
      assert IsDigit(ds[|ds| - 1], base);
      var high := DigitsValue(ds[..|ds| - 1], base);
      (if base == 16 then high * 16 else high * 10) + DigitValue(ds[|ds| - 1], base).value
  }

  /** `s` without a `0x` or `0X` prefix, and the base it selects. */
  function Radix(s: string): (string, nat)
  {
    if |s| >= 2 && s[0] == '0' && (s[1] == 'x' || s[1] == 'X') then (s[2..], 16) else (s, 10)
  }

  /** What `parseInt` reads: the digits after the leading white space,
      the sign and the radix prefix, their base, and whether the sign was a
      minus. */
  datatype Scanned = Scanned(digits: string, base: nat, negative: bool)

  /** The text after the leading white space and an optional sign. */
  function Unsigned(s: string): (u: string)
    ensures |u| <= |s| && u == s[|s| - |u|..]
  {
    var t := TrimStart(s);
    if |t| > 0 && (t[0] == '+' || t[0] == '-') then
      SuffixOfSuffix(s, t);
      t[1..]
    else t
  }

  lemma SuffixOfSuffix(s: string, t: string)
    requires |t| > 0 && |t| <= |s| && t == s[|s| - |t|..]
    ensures t[1..] == s[|s| - |t| + 1..]
  {
  }

  function Scan(s: string): (sc: Scanned)
    ensures sc.base == 10 || sc.base == 16
    ensures forall i :: 0 <= i < |sc.digits| ==> IsDigit(sc.digits[i], sc.base)
    ensures sc.negative ==> TrimStart(s) != "" && TrimStart(s)[0] == '-'
  {
    var t := TrimStart(s);
    var r := Radix(Unsigned(s));
    Scanned(DigitPrefix(r.0, r.1), r.1, |t| > 0 && t[0] == '-')
  }

  /** `parseInt(s)`: `None` exactly when no digit follows the white space,
      the sign and the radix prefix; otherwise the value of the digits
      there, ignoring whatever comes after them, negative only after a
      minus sign. */
  function ParseInt(s: string): (r: Option<int>)
    ensures r.None? <==> Scan(s).digits == ""
    ensures r.Some? ==> (r.value < 0 ==> TrimStart(s)[0] == '-')
    ensures r.Some? ==> r.value == if Scan(s).negative then -(DigitsValue(Scan(s).digits, Scan(s).base) as int)
                                   else DigitsValue(Scan(s).digits, Scan(s).base)
  {
    var sc := Scan(s);
    if sc.digits == "" then None
    else
      var n := DigitsValue(sc.digits, sc.base);
      Some(if sc.negative then -(n as int) else n)
  }

  /** The decimal spelling of a natural number, as `String(n)` writes it. */
  function Decimal(n: nat): (s: string)
    ensures |s| >= 1
    ensures forall i :: 0 <= i < |s| ==> '0' <= s[i] <= '9'
    ensures n >= 10 ==> s[0] != '0'
    decreases n
  {
    var last := ['0' + ((n % 10) as char)];
    if n < 10 then last else Decimal(n / 10) + last
  }

  lemma {:induction false} DecimalValue(n: nat)
    ensures forall i :: 0 <= i < |Decimal(n)| ==> IsDigit(Decimal(n)[i], 10)
    ensures DigitsValue(Decimal(n), 10) == n
    decreases n
  {
    var s := Decimal(n);
    assert forall i :: 0 <= i < |s| ==> IsDigit(s[i], 10) by {
      forall i | 0 <= i < |s| ensures IsDigit(s[i], 10) {
        assert '0' <= s[i] <= '9';
      }
    }
    if n >= 10 {
      DecimalValue(n / 10);
      assert s[..|s| - 1] == Decimal(n / 10);
    }
  }

  /** A string that starts with a decimal digit, not followed by `x` or
      `X`, is read in base 10 from its first character. */
  lemma ParseFromDigit(s: string)
    requires s != "" && '0' <= s[0] <= '9'
    requires |s| >= 2 ==> s[1] != 'x' && s[1] != 'X'
    ensures Scan(s) == Scanned(DigitPrefix(s, 10), 10, false)
    ensures DigitPrefix(s, 10) != ""
  {
    StartsUnsigned(s);
    assert Radix(s) == (s, 10);
    assert DigitPrefix(s, 10) != "" by {
      assert IsDigit(s[0], 10);
    }
  }

  /** Text that starts with a decimal digit has no white space or sign to
      skip. */
  lemma StartsUnsigned(s: string)
    requires s != "" && '0' <= s[0] <= '9'
    ensures TrimStart(s) == s && Unsigned(s) == s
  {
    assert !IsWhitespace(s[0]);
  }

  /** Reading back the decimal spelling of a number gives the number:
      every version number written in decimal is accepted as itself. */
  lemma DecimalRoundTrip(n: nat)
    ensures ParseInt(Decimal(n)) == Some(n)
  {
    TrailingTextIgnored(n, "");
    assert Decimal(n) + "" == Decimal(n);
  }

  /** Text after the digits is ignored, so `2abc` reads as 2. (After a
      lone `0`, an `x` would select base 16 instead.) */
  lemma TrailingTextIgnored(n: nat, tail: string)
    requires tail == "" || !('0' <= tail[0] <= '9' || tail[0] == 'x' || tail[0] == 'X')
    ensures ParseInt(Decimal(n) + tail) == Some(n)
  {
    var d := Decimal(n);
    var s := d + tail;
    DecimalValue(n);
    DecimalThenText(n, tail);
    ParseFromDigit(s);
    DigitPrefixOfDigits(d, tail);
    assert Scan(s) == Scanned(d, 10, false);
  }

  /** A decimal spelling followed by such a tail starts with a digit that
      no `x` follows. */
  lemma DecimalThenText(n: nat, tail: string)
    requires tail == "" || !('0' <= tail[0] <= '9' || tail[0] == 'x' || tail[0] == 'X')
    ensures var s := Decimal(n) + tail;
            s != "" && '0' <= s[0] <= '9' && (|s| >= 2 ==> s[1] != 'x' && s[1] != 'X')
    ensures tail == "" || !IsDigit(tail[0], 10)
  {
    var d := Decimal(n);
    var s := d + tail;
    assert s[0] == d[0];
    if |s| >= 2 {
      if |d| >= 2 { assert s[1] == d[1]; }
      else { assert s[1] == tail[0]; }
    }
  }

  /** The digit prefix of digits followed by a non-digit is those digits. */
  lemma {:induction false} DigitPrefixOfDigits(d: string, tail: string)
    requires forall i :: 0 <= i < |d| ==> IsDigit(d[i], 10)
    requires tail == "" || !IsDigit(tail[0], 10)
    ensures DigitPrefix(d + tail, 10) == d
    decreases |d|
  {
    if |d| == 0 {
      assert d + tail == tail;
    } else {
      DigitPrefixOfDigits(d[1..], tail);
      assert (d + tail)[1..] == d[1..] + tail;
      assert (d + tail)[0] == d[0];
      assert d == [d[0]] + d[1..];
    }
  }

  /** A string with no decimal digit at all is NaN. */
  lemma NoDigitIsNaN(s: string)
    requires forall i :: 0 <= i < |s| ==> !('0' <= s[i] <= '9')
    ensures ParseInt(s) == None
  {
    var u := Unsigned(s);
    assert Radix(u) == (u, 10) && DigitPrefix(u, 10) == "" by {
      if |u| > 0 {
        assert u[0] == s[|s| - |u|];
        assert !IsDigit(u[0], 10);
      }
    }
  }
}

=== FILE: profiles.dfy ===
/** The profile store (src/lib/profile.ts): the credentials file read as a
    table from profile names to profiles. Reading and writing the file
    itself is not modelled; each operation is a function of the table. */
module Profiles {
  import opened Wrappers
  import opened Types

  type Store = map<string, Profile>

  /** `getProfile`: the stored profile, or nothing for an unknown name. */
  function GetProfile(store: Store, name: string): (r: Option<Profile>)
    ensures r.Some? <==> name in store
    ensures r.Some? ==> r.value == store[name]
  {
    if name in store then Some(store[name]) else None
  }

  /** `setProfile`: stores `profile` under `name`, replacing any previous
      entry as a whole; every other entry stays as it was. */
  function SetProfile(store: Store, name: string, profile: Profile): (r: Store)
    ensures r.Keys == store.Keys + {name}
    ensures GetProfile(r, name) == Some(profile)
    ensures forall n :: n != name ==> GetProfile(r, n) == GetProfile(store, n)
  {
    store[name := profile]
  }

  /** `deleteProfile`: removes `name`; every other entry stays as it was. */
  function DeleteProfile(store: Store, name: string): (r: Store)
    ensures r.Keys == store.Keys - {name}
    ensures GetProfile(r, name) == None
    ensures forall n :: n != name ==> GetProfile(r, n) == GetProfile(store, n)
  {
    store - {name}
  }

  /** `getAllProfiles`: the whole table, agreeing with `getProfile` on
      every name. */
  function GetAllProfiles(store: Store): (r: Store)
    ensures forall n :: GetProfile(store, n) == (if n in r then Some(r[n]) else None)
  {
    store
  }

  /** Setting twice under one name keeps only the second profile. */
  lemma SetReplacesWhole(store: Store, name: string, p: Profile, q: Profile)
    ensures SetProfile(SetProfile(store, name, p), name, q) == SetProfile(store, name, q)
  {
  }

  /** Deleting a name that is not stored changes nothing. */
  lemma DeleteAbsentIsNoOp(store: Store, name: string)
    requires GetProfile(store, name).None?
    ensures DeleteProfile(store, name) == store
  {
  }

  /** Deleting a freshly added name restores the table. */
  lemma DeleteUndoesSet(store: Store, name: string, p: Profile)
    requires GetProfile(store, name).None?
    ensures DeleteProfile(SetProfile(store, name, p), name) == store
  {
  }

  /** Storing the profile already stored under a name changes nothing. */
  lemma SetSameIsNoOp(store: Store, name: string, p: Profile)
    requires GetProfile(store, name) == Some(p)
    ensures SetProfile(store, name, p) == store
  {
  }
}

=== FILE: pull.dfy ===
/** The `pull` command (src/commands/pull.ts): reads a KV version-2 secret
    and either prints it or writes it to an environment file, as dotenv
    lines or as JSON. It does not go through the shared command wrapper: it
    validates its own options and resolves credentials itself. The file
    system, the backend and the user are represented by their answers. */
module PullCommand {
  import opened Wrappers
  import opened Strings
  import opened Types
  import opened Records
  import opened Schemas
  import opened Profiles
  import opened Helpers

  const Formats: seq<string> := ["dotenv", "json"]

  /** The options schema as written: it declares `name` where the option is
      called `profile`, so zod strips the profile the user chose. */
  const PullSchemaAsWritten: Schema := map[
    "name" := OptionalString, "endpointUrl" := OptionalString, "token" := OptionalString,
    "cwd" := RequiredString, "vaultPath" := RequiredString, "envPath" := StringOr(".env"),
    "format" := OneOf(Formats, "dotenv"), "force" := BoolOr(false)]

  /** The schema with the profile option kept under its own name. */
  const PullSchema: Schema := map[
    "profile" := OptionalString, "endpointUrl" := OptionalString, "token" := OptionalString,
    "cwd" := RequiredString, "vaultPath" := RequiredString, "envPath" := StringOr(".env"),
    "format" := OneOf(Formats, "dotenv"), "force" := BoolOr(false)]

  /** A secret's entries, in the order the backend lists them. */
  type Entries = seq<(string, string)>

  /** The lines `key=value` of the dotenv format. */
  function DotenvLines(entries: Entries): (lines: seq<string>)
    ensures |lines| == |entries|
    ensures forall i :: 0 <= i < |entries| ==> lines[i] == entries[i].0 + "=" + entries[i].1
  {
    seq(|entries|, i requires 0 <= i < |entries| => entries[i].0 + "=" + entries[i].1)
  }

  /** The dotenv text: one `key=value` line per entry, joined by `\n`. */
  function FormatDotenv(entries: Entries): string
  {
    Join(DotenvLines(entries), '\n')
  }

  /** The entry a dotenv line holds: the key before the first `=`, the
      value after it. A line with no `=` holds none. */
  function ReadLine(line: string): (e: Option<(string, string)>)
    ensures e.Some? <==> '=' in line
    ensures e.Some? ==> e.value.0 + "=" + e.value.1 == line && '=' !in e.value.0
  {
    if '=' in line then
      var i := IndexOf(line, '=');
      assert line == line[..i] + "=" + line[i + 1..];
      Some((line[..i], line[i + 1..]))
    else None
  }

  /** The entries of the lines that hold one, in order. */
  function ReadLines(lines: seq<string>): (entries: Entries)
    ensures |entries| <= |lines|
    decreases |lines|
  {
    if |lines| == 0 then []
    else
      match ReadLine(lines[0])
      case Some(e) => [e] + ReadLines(lines[1..])
      case None => ReadLines(lines[1..])
  }

  /** A reading of dotenv text: the entries of its non-empty lines. */
  function ReadDotenv(text: string): Entries
  {
    ReadLines(Segments(text, '\n'))
  }

  /** An entry that dotenv text can carry: a non-empty key with no `=` and
      no line break, and a value with no line break. */
  predicate Representable(e: (string, string))
  {
    e.0 != "" && '=' !in e.0 && '\n' !in e.0 && '\n' !in e.1
  }

  /** A line made from an entry with no `=` in its key reads back as that
      entry. */
  lemma ReadLineOfEntry(k: string, v: string)
    requires '=' !in k
    ensures ReadLine(k + "=" + v) == Some((k, v))
  {
    var line := k + "=" + v;
    assert line[|k|] == '=' && line[..|k|] == k && line[|k| + 1..] == v;
    assert IndexOf(line, '=') == |k|;
  }

  lemma {:induction false} ReadLinesOfEntries(entries: Entries)
    requires forall i :: 0 <= i < |entries| ==> '=' !in entries[i].0
    ensures ReadLines(DotenvLines(entries)) == entries
    decreases |entries|
  {
    if |entries| > 0 {
      ReadLineOfEntry(entries[0].0, entries[0].1);
      ReadLinesOfEntries(entries[1..]);
      assert DotenvLines(entries)[1..] == DotenvLines(entries[1..]);
    }
  }

  /** The dotenv text of representable entries reads back as exactly those
      entries, in order. */
  lemma DotenvRoundTrip(entries: Entries)
    requires forall i :: 0 <= i < |entries| ==> Representable(entries[i])
    ensures ReadDotenv(FormatDotenv(entries)) == entries
  {
    var lines := DotenvLines(entries);
    if |entries| == 0 {
      assert Segments("", '\n') == [];
    } else {
      assert forall i :: 0 <= i < |lines| ==> '\n' !in lines[i] && lines[i] != "" by {
        forall i | 0 <= i < |lines| ensures '\n' !in lines[i] && lines[i] != "" {
          assert Representable(entries[i]);
          assert lines[i] == entries[i].0 + "=" + entries[i].1;
          assert lines[i][|entries[i].0|] == '=';
        }
      }
      SplitJoin(lines, '\n');
      NonEmptyKeepsAll(lines);
    }
    ReadLinesOfEntries(entries);
  }

  /** The text for `format`: JSON as the renderer gives it, dotenv lines,
      and the empty string for any other format. */
  function Format(format: string, entries: Entries, renderJson: Entries -> string): (text: string)
    ensures format == "dotenv" ==> text == FormatDotenv(entries)
    ensures format == "json" ==> text == renderJson(entries)
    ensures format !in Formats ==> text == ""
  {
    if format == "json" then renderJson(entries)
    else if format == "dotenv" then FormatDotenv(entries)
    else ""
  }

  /** The answers for one pull. `absolute` and `resolve` stand for
      `path.resolve` with one and two arguments; `status` is the sealed flag
      the status call reports, or the error it throws; `secret` is the read
      reply: `None` when it carries no secret, `Some(None)` when the secret
      carries no data, and the entries otherwise; `renderJson` stands for
      `JSON.stringify(env, null, 2)`; `writeError` is the error the file
      write rejects with, if any. */
  datatype PullWorld = PullWorld(
    absolute: string -> string,
    cwdAccessible: bool,
    status: Result<bool, Error>,
    secretExists: bool,
    secret: Option<Option<Entries>>,
    renderJson: Entries -> string,
    resolve: (string, string) -> string,
    envFileExists: bool,
    confirm: bool,
    writeError: Option<Error>)

  predicate IsFileWrite(e: Effect) { e.FileWrite? }

  /** The last step, once the entries are known: an empty env path prints
      them; otherwise, unless forced, an existing file is only overwritten
      after confirmation, a declined confirmation aborts with exit code 1,
      and a rejected write is thrown. */
  function Deliver(envPath: string, format: string, force: bool, cwd: string, entries: Entries, w: PullWorld)
    : (r: Run)
    ensures envPath == "" ==>
              r == Run([Say(if Format(format, entries, w.renderJson) == "" then PrintedEntries(entries)
                            else PrintedEnv(Format(format, entries, w.renderJson)))], Exit(0))
    ensures r.outcome == Exit(1) <==> envPath != "" && !force && w.envFileExists && !w.confirm
    ensures r.outcome.Failed? <==> WriteFails(envPath, force, w)
    ensures r.outcome.Failed? ==> r.outcome.error == w.writeError.value
    ensures r.outcome.Exit? ==> r.outcome.code == 0 || r.outcome.code == 1
    ensures Prompt in r.effects <==> envPath != "" && !force && w.envFileExists
    ensures FileCheck(w.resolve(cwd, envPath)) in r.effects <==> envPath != "" && !force
    ensures forall e :: e in r.effects && IsFileWrite(e) ==>
              e == FileWrite(w.resolve(cwd, envPath), Format(format, entries, w.renderJson))
    ensures Say(EnvFileWritten(w.resolve(cwd, envPath))) in r.effects <==>
              DeliverWrites(envPath, force, w) && w.writeError.None?
  {
    var text := Format(format, entries, w.renderJson);
    if envPath == "" then
      Run([Say(if text == "" then PrintedEntries(entries) else PrintedEnv(text))], Exit(0))
    else
      var file := w.resolve(cwd, envPath);
      var asked := (if force then [] else [FileCheck(file)]) + (if !force && w.envFileExists then [Prompt] else []);
      if !force && w.envFileExists && !w.confirm then Run(asked + [Say(AbortingPull)], Exit(1))
      else match w.writeError
        case Some(e) => Run(asked + [FileWrite(file, text)], Failed(e))
        case None => Run(asked + [FileWrite(file, text), Say(EnvFileWritten(file))], Exit(0))
  }

  /** Whether the last step writes the file. */
  predicate DeliverWrites(envPath: string, force: bool, w: PullWorld)
  {
    envPath != "" && (force || !w.envFileExists || w.confirm)
  }

  /** Whether the last step writes the file and the write is rejected. */
  predicate WriteFails(envPath: string, force: bool, w: PullWorld)
  {
    DeliverWrites(envPath, force, w) && w.writeError.Some?
  }

  /** Whether the read reply carries a secret with data. */
  predicate HoldsData(w: PullWorld)
  {
    w.secretExists && w.secret.Some? && w.secret.value.Some?
  }

  /** The file is written at most once, exactly when `DeliverWrites` holds. */
  lemma DeliverWritesOnce(envPath: string, format: string, force: bool, cwd: string, entries: Entries, w: PullWorld)
    ensures Count(Deliver(envPath, format, force, cwd, entries, w).effects, IsFileWrite)
         == if DeliverWrites(envPath, force, w) then 1 else 0
  {
    var r := Deliver(envPath, format, force, cwd, entries, w);
    if DeliverWrites(envPath, force, w) {
      DeliverWriteEffects(envPath, format, force, cwd, entries, w);
    } else {
      assert forall i :: 0 <= i < |r.effects| ==> !IsFileWrite(r.effects[i]) by {
        forall i | 0 <= i < |r.effects| ensures !IsFileWrite(r.effects[i]) {
          DeliverNoWrite(envPath, format, force, cwd, entries, w, r.effects[i]);
        }
      }
      CountZero(r.effects, IsFileWrite);
    }
  }

  /** When the last step writes, it writes exactly once. */
  lemma DeliverWriteEffects(envPath: string, format: string, force: bool, cwd: string, entries: Entries, w: PullWorld)
    requires DeliverWrites(envPath, force, w)
    ensures Count(Deliver(envPath, format, force, cwd, entries, w).effects, IsFileWrite) == 1
  {
    var file := w.resolve(cwd, envPath);
    var asked: seq<Effect> := (if force then [] else [FileCheck(file)]) + (if !force && w.envFileExists then [Prompt] else []);
    var tail: seq<Effect> := if w.writeError.Some? then [] else [Say(EnvFileWritten(file))];
    DeliverWriteShape(envPath, format, force, cwd, entries, w);
    CountOneWrite(asked, FileWrite(file, Format(format, entries, w.renderJson)), tail);
  }

  /** A single write between effects that are not writes counts once. */
  lemma CountOneWrite(before: seq<Effect>, write: Effect, after: seq<Effect>)
    requires forall i :: 0 <= i < |before| ==> !IsFileWrite(before[i])
    requires IsFileWrite(write)
    requires forall i :: 0 <= i < |after| ==> !IsFileWrite(after[i])
    ensures Count(before + ([write] + after), IsFileWrite) == 1
  {
    CountZero(before, IsFileWrite);
    CountAppend(before, [write] + after, IsFileWrite);
    CountCons(write, after, IsFileWrite);
    CountZero(after, IsFileWrite);
  }

  /** When the last step writes, its effects are the checks, the one write,
      and the success report unless the write is rejected. */
  lemma DeliverWriteShape(envPath: string, format: string, force: bool, cwd: string, entries: Entries, w: PullWorld)
    requires DeliverWrites(envPath, force, w)
    ensures var file := w.resolve(cwd, envPath);
            Deliver(envPath, format, force, cwd, entries, w).effects
              == ((if force then [] else [FileCheck(file)]) + (if !force && w.envFileExists then [Prompt] else []))
                 + ([FileWrite(file, Format(format, entries, w.renderJson))]
                    + (if w.writeError.Some? then [] else [Say(EnvFileWritten(file))]))
  {
  }

  /** When the last step does not write, none of its effects is a write. */
  lemma DeliverNoWrite(envPath: string, format: string, force: bool, cwd: string, entries: Entries, w: PullWorld,
                       e: Effect)
    requires !DeliverWrites(envPath, force, w)
    requires e in Deliver(envPath, format, force, cwd, entries, w).effects
    ensures !IsFileWrite(e)
  {
  }

  /** What follows an unsealed status: the existence check and the read. A
      missing path ends the run with exit code 1 before the read, a reply
      without data ends it with exit code 1 before anything is written, and
      only a rejected file write is thrown. */
  function Retrieve(vaultPath: string, envPath: string, format: string, force: bool, cwd: string, w: PullWorld)
    : (r: Run)
    ensures |r.effects| >= 1 && r.effects[0] == SecretPathCheck(vaultPath)
    ensures !w.secretExists ==> r == Run([SecretPathCheck(vaultPath), Say(SecretPathMissing(vaultPath))], Exit(1))
    ensures SecretRead(vaultPath) in r.effects <==> w.secretExists
    ensures r.outcome.Failed? <==> HoldsData(w) && WriteFails(envPath, force, w)
    ensures !HoldsData(w) ==> r.outcome == Exit(1) && !(exists e :: e in r.effects && IsFileWrite(e))
  {
    var checked := [SecretPathCheck(vaultPath)];
    if !w.secretExists then Run(checked + [Say(SecretPathMissing(vaultPath))], Exit(1))
    else
      var read := checked + [SecretRead(vaultPath)];
      match w.secret
      case None => Run(read + [Say(NoSecretsFound(vaultPath))], Exit(1))
      case Some(None) => Run(read + [Say(NoSecretsFound(vaultPath))], Exit(1))
      case Some(Some(entries)) => After(read, Deliver(envPath, format, force, cwd, entries, w))
  }

  /** The middle step, once credentials are resolved: the status check, then
      the existence check and the read. A sealed backend ends the run with
      exit code 1 before the existence check; a status error is thrown, and
      so is a rejected file write. */
  function Fetch(vaultPath: string, envPath: string, format: string, force: bool, cwd: string, w: PullWorld)
    : (r: Run)
    ensures |r.effects| >= 1 && r.effects[0] == StatusQuery
    ensures w.status.Failure? ==> r == Run([StatusQuery], Failed(w.status.error))
    ensures r.outcome.Failed? <==>
              w.status.Failure? || (w.status == Success(false) && HoldsData(w) && WriteFails(envPath, force, w))
    ensures SecretPathCheck(vaultPath) in r.effects <==> w.status == Success(false)
    ensures w.status.Success? && (w.status.value || !w.secretExists || w.secret.None? || w.secret.value.None?)
            ==> r.outcome == Exit(1) && !(exists e :: e in r.effects && IsFileWrite(e))
  {
    match w.status
    case Failure(e) => Run([StatusQuery], Failed(e))
    case Success(sealed) =>
      if sealed then Run([StatusQuery, Say(SealedCannotPull)], Exit(1))
      else After([StatusQuery], Retrieve(vaultPath, envPath, format, force, cwd, w))
  }

  /** The middle step as written: the status call answers with a wrapper
      holding `data` and `error`, and the command reads `sealed` off the
      wrapper itself, where it is undefined. So neither a sealed backend nor
      a status error stops the run. */
  function FetchAsWritten(vaultPath: string, envPath: string, format: string, force: bool, cwd: string,
                          w: PullWorld): Run
  {
    After([StatusQuery], Retrieve(vaultPath, envPath, format, force, cwd, w))
  }

  /** As written, the existence check follows the status query whatever the
      status reply says, and a status error is never thrown: the run fails
      only by a rejected file write. */
  lemma AsWrittenStatusIgnored(vaultPath: string, envPath: string, format: string, force: bool, cwd: string,
                               w: PullWorld)
    ensures var r := FetchAsWritten(vaultPath, envPath, format, force, cwd, w);
            |r.effects| >= 2 && r.effects[..2] == [StatusQuery, SecretPathCheck(vaultPath)]
            && (r.outcome.Failed? <==> HoldsData(w) && WriteFails(envPath, force, w))
  {
    var rest := Retrieve(vaultPath, envPath, format, force, cwd, w);
    var r := FetchAsWritten(vaultPath, envPath, format, force, cwd, w);
    assert r.effects[1] == rest.effects[0];
  }

  /** The action after option validation: an inaccessible working
      directory ends the run with exit code 1 before credentials are
      resolved; a credential error is thrown before any backend call. */
  function PullAction(options: Record, store: Store, w: PullWorld): (r: Run)
    ensures |r.effects| >= 1 && r.effects[0] == FileCheck(w.absolute(StrOf(Get(options, "cwd"))))
    ensures !w.cwdAccessible ==> r.outcome == Exit(1) && |r.effects| == 2
    ensures w.cwdAccessible && ResolveCredentials(options, store).Failure? ==>
              r == Run([FileCheck(w.absolute(StrOf(Get(options, "cwd"))))],
                       Failed(ResolveCredentials(options, store).error))
    ensures w.cwdAccessible && ResolveCredentials(options, store).Success? ==>
              r == After([FileCheck(w.absolute(StrOf(Get(options, "cwd"))))],
                         Fetch(StrOf(Get(options, "vaultPath")), StrOf(Get(options, "envPath")),
                               StrOf(Get(options, "format")), IsSet(Get(options, "force")),
                               w.absolute(StrOf(Get(options, "cwd"))), w))
  {
    var cwd := w.absolute(StrOf(Get(options, "cwd")));
    if !w.cwdAccessible then Run([FileCheck(cwd), Say(CwdMissing(cwd))], Exit(1))
    else match ResolveCredentials(options, store)
      case Failure(e) => Run([FileCheck(cwd)], Failed(e))
      case Success(_) =>
        After([FileCheck(cwd)],
              Fetch(StrOf(Get(options, "vaultPath")), StrOf(Get(options, "envPath")), StrOf(Get(options, "format")),
                    IsSet(Get(options, "force")), cwd, w))
  }

  /** The command with a given schema: the secret path argument overrides
      any `vaultPath` option, the options are validated, then the action
      runs. */
  function PullWith(schema: Schema, opts: Record, vaultPath: string, store: Store, w: PullWorld): (r: Run)
    ensures Parse(schema, Spread(opts, map["vaultPath" := Str(vaultPath)])).Failure? ==>
              r.effects == [] && r.outcome.Failed? && r.outcome.error.ValidationError?
    ensures Parse(schema, Spread(opts, map["vaultPath" := Str(vaultPath)])).Success? ==>
              r == PullAction(Parse(schema, Spread(opts, map["vaultPath" := Str(vaultPath)])).value, store, w)
    ensures Parse(schema, Spread(opts, map["vaultPath" := Str(vaultPath)])).Success? && "vaultPath" in schema ==>
              Get(Parse(schema, Spread(opts, map["vaultPath" := Str(vaultPath)])).value, "vaultPath") == Str(vaultPath)
  {
    match Parse(schema, Spread(opts, map["vaultPath" := Str(vaultPath)]))
    case Failure(e) => Run([], Failed(e))
    case Success(options) => PullAction(options, store, w)
  }

  /** The command as the rest of the model uses it. */
  function Pull(opts: Record, vaultPath: string, store: Store, w: PullWorld): Run
  {
    PullWith(PullSchema, opts, vaultPath, store, w)
  }

  /** Validated options always name a known format, so the empty text of an
      unknown format is never produced. */
  lemma ValidatedFormatIsKnown(schema: Schema, input: Record)
    requires schema == PullSchema || schema == PullSchemaAsWritten
    requires Parse(schema, input).Success?
    ensures StrOf(Get(Parse(schema, input).value, "format")) in Formats
  {
    assert Conforms(schema["format"], Get(Parse(schema, input).value, "format"));
  }

  /** Without `--env-path`, `--format` and `--force`, validation fills in
      `.env`, dotenv and no forcing, so the command writes `.env` (after
      asking when it exists) rather than printing. */
  lemma PullDefaults(schema: Schema, input: Record, w: PullWorld)
    requires schema == PullSchema || schema == PullSchemaAsWritten
    requires Parse(schema, input).Success?
    requires Get(input, "envPath") == Absent && Get(input, "format") == Absent && Get(input, "force") == Absent
    ensures var options := Parse(schema, input).value;
            Get(options, "envPath") == Str(".env") && Get(options, "format") == Str("dotenv")
            && Get(options, "force") == Flag(false)
            && (DeliverWrites(StrOf(Get(options, "envPath")), IsSet(Get(options, "force")), w)
                <==> !w.envFileExists || w.confirm)
  {
    var options := Parse(schema, input).value;
    assert schema["envPath"] == StringOr(".env") && schema["format"] == OneOf(Formats, "dotenv")
        && schema["force"] == BoolOr(false);
    assert Get(options, "envPath") == Coerce(schema["envPath"], Absent);
    assert Get(options, "format") == Coerce(schema["format"], Absent);
    assert Get(options, "force") == Coerce(schema["force"], Absent);
  }

  /** A file is written only after the working directory was found, the
      credentials resolved, the backend answered unsealed, the path existed
      and the reply carried data; and what is written is the formatted
      entries of that reply. */
  lemma WritesOnlyAfterSuccessfulRead(options: Record, store: Store, w: PullWorld, e: Effect)
    requires e in PullAction(options, store, w).effects && IsFileWrite(e)
    ensures w.cwdAccessible && ResolveCredentials(options, store).Success?
    ensures w.status == Success(false) && w.secretExists && w.secret.Some? && w.secret.value.Some?
    ensures e.content == Format(StrOf(Get(options, "format")), w.secret.value.value, w.renderJson)
  {
    var cwd := w.absolute(StrOf(Get(options, "cwd")));
    if w.cwdAccessible && ResolveCredentials(options, store).Success? {
      var f := Fetch(StrOf(Get(options, "vaultPath")), StrOf(Get(options, "envPath")), StrOf(Get(options, "format")),
                     IsSet(Get(options, "force")), cwd, w);
      assert PullAction(options, store, w).effects == [FileCheck(cwd)] + f.effects;
      assert e in f.effects;
      FetchWritesOnlyAfterRead(StrOf(Get(options, "vaultPath")), StrOf(Get(options, "envPath")),
                               StrOf(Get(options, "format")), IsSet(Get(options, "force")), cwd, w, e);
    }
  }

  /** The fetch step writes only after an unsealed status, an existing path
      and a reply with data, and writes the formatted entries. */
  lemma FetchWritesOnlyAfterRead(vaultPath: string, envPath: string, format: string, force: bool, cwd: string,
                                 w: PullWorld, e: Effect)
    requires e in Fetch(vaultPath, envPath, format, force, cwd, w).effects && IsFileWrite(e)
    ensures w.status == Success(false) && w.secretExists && w.secret.Some? && w.secret.value.Some?
    ensures e.content == Format(format, w.secret.value.value, w.renderJson)
  {
    if w.status == Success(false) {
      var rest := Retrieve(vaultPath, envPath, format, force, cwd, w);
      var r := Fetch(vaultPath, envPath, format, force, cwd, w);
      assert r == After([StatusQuery], rest);
      assert e != StatusQuery;
      assert e in rest.effects;
      RetrieveWritesOnlyAfterRead(vaultPath, envPath, format, force, cwd, w, e);
    }
  }

  /** The reading step writes a file only once it has read an existing,
      present secret, and what it writes is that secret rendered. */
  lemma RetrieveWritesOnlyAfterRead(vaultPath: string, envPath: string, format: string, force: bool, cwd: string,
                                    w: PullWorld, e: Effect)
    requires e in Retrieve(vaultPath, envPath, format, force, cwd, w).effects && IsFileWrite(e)
    ensures w.secretExists && w.secret.Some? && w.secret.value.Some?
    ensures e.content == Format(format, w.secret.value.value, w.renderJson)
  {
    if !HoldsData(w) {
      assert false;
    }
    var read := [SecretPathCheck(vaultPath), SecretRead(vaultPath)];
    var d := Deliver(envPath, format, force, cwd, w.secret.value.value, w);
    RetrieveDelivers(vaultPath, envPath, format, force, cwd, w);
    assert e !in read;
    assert e in d.effects;
  }

  /** Once the reply holds data, the reading step is the path check and the
      read, followed by the last step on that data. */
  lemma RetrieveDelivers(vaultPath: string, envPath: string, format: string, force: bool, cwd: string,
                         w: PullWorld)
    requires HoldsData(w)
    ensures Retrieve(vaultPath, envPath, format, force, cwd, w)
         == After([SecretPathCheck(vaultPath), SecretRead(vaultPath)],
                  Deliver(envPath, format, force, cwd, w.secret.value.value, w))
  {
    assert w.secret == Some(Some(w.secret.value.value));
  }

  /** With dotenv chosen, the file written reads back as the secret's
      entries. */
  lemma WrittenDotenvReadsBack(options: Record, store: Store, w: PullWorld, e: Effect)
    requires e in PullAction(options, store, w).effects && IsFileWrite(e)
    requires StrOf(Get(options, "format")) == "dotenv"
    requires w.secret.Some? && w.secret.value.Some?
    requires forall i :: 0 <= i < |w.secret.value.value| ==> Representable(w.secret.value.value[i])
    ensures ReadDotenv(e.content) == w.secret.value.value
  {
    WritesOnlyAfterSuccessfulRead(options, store, w, e);
    DotenvRoundTrip(w.secret.value.value);
  }

  /** As written, a profile chosen with `-P` is stripped by the schema, so an
      invocation that names a profile and no endpoint and token fails with
      missing credentials after the directory check, whatever profiles are
      stored. */
  lemma AsWrittenProfileIgnored(opts: Record, vaultPath: string, store: Store, w: PullWorld, name: string)
    requires name in store
    requires Get(opts, "profile") == Str(name) && name != ""
    requires Get(opts, "endpointUrl") == Absent && Get(opts, "token") == Absent
    requires Parse(PullSchemaAsWritten, Spread(opts, map["vaultPath" := Str(vaultPath)])).Success?
    requires w.cwdAccessible
    ensures PullWith(PullSchemaAsWritten, opts, vaultPath, store, w).outcome == Failed(MissingCredentials)
  {
    var input := Spread(opts, map["vaultPath" := Str(vaultPath)]);
    AsWrittenOptionsLackCredentials(input, store);
  }

  /** The options the as-written schema keeps from such an input name no
      profile, endpoint or token. */
  lemma AsWrittenOptionsLackCredentials(input: Record, store: Store)
    requires Get(input, "endpointUrl") == Absent && Get(input, "token") == Absent
    requires Parse(PullSchemaAsWritten, input).Success?
    ensures ResolveCredentials(Parse(PullSchemaAsWritten, input).value, store) == Failure(MissingCredentials)
  {
    var options := Parse(PullSchemaAsWritten, input).value;
    assert "profile" !in PullSchemaAsWritten;
    assert Get(options, "profile") == Absent;
    assert Get(options, "endpointUrl") == Absent && Get(options, "token") == Absent;
  }

  /** With the profile kept, the same invocation uses the stored profile
      and goes on to ask the backend for its status. */
  lemma ProfileReachesBackend(opts: Record, vaultPath: string, store: Store, w: PullWorld, name: string)
    requires name in store
    requires Get(opts, "profile") == Str(name) && name != ""
    requires Parse(PullSchema, Spread(opts, map["vaultPath" := Str(vaultPath)])).Success?
    requires w.cwdAccessible
    ensures var r := Pull(opts, vaultPath, store, w);
            |r.effects| >= 2 && r.effects[1] == StatusQuery
  {
    var input := Spread(opts, map["vaultPath" := Str(vaultPath)]);
    var options := Parse(PullSchema, input).value;
    assert Get(input, "profile") == Str(name);
    assert ProfileName(options) == Some(name);
  }

  /** Forcing never asks and never looks at the existing file: the run
      ends with exit code 0 unless the write is rejected. */
  lemma ForceNeverAsks(envPath: string, format: string, cwd: string, entries: Entries, w: PullWorld)
    ensures Prompt !in Deliver(envPath, format, true, cwd, entries, w).effects
    ensures Deliver(envPath, format, true, cwd, entries, w).outcome
         == if envPath != "" && w.writeError.Some? then Failed(w.writeError.value) else Exit(0)
  {
  }
}

=== FILE: push.dfy ===
/** The `push` command (src/commands/push.ts): reads a dotenv file and
    writes its entries to a KV version-2 secret, asking before it
    overwrites an existing secret path unless forced. The file system, the
    backend and the user are represented by their answers. */
module PushCommand {
  import opened Wrappers
  import opened Types
  import opened Records
  import opened Schemas
  import opened Helpers
  import opened Vault
  import opened Command

  const PushSchema: Schema := map[
    "envFile" := RequiredString, "secretsPath" := RequiredString,
    "profile" := OptionalString, "endpointUrl" := OptionalString, "token" := OptionalString,
    "cwd" := RequiredString, "force" := RequiredBool]

  /** The outside world's answers for one push: the absolute form
      `path.resolve` gives the working directory, whether that directory is
      accessible, how `path.resolve` joins it with the env file name, whether the secret path already exists, the answer to the
      overwrite prompt, and what dotenv parsed from the file (`None` when it
      could not read it). */
  datatype PushWorld = PushWorld(
    absolute: string -> string,
    cwdAccessible: bool,
    resolve: (string, string) -> string,
    secretExists: bool,
    confirm: bool,
    parsed: Option<map<string, string>>)

  /** Whether the run gets past the overwrite question. */
  predicate Proceeds(force: bool, w: PushWorld)
  {
    force || !w.secretExists || w.confirm
  }

  /** Whether there is anything to write. */
  predicate HasSecrets(w: PushWorld)
  {
    w.parsed.Some? && |w.parsed.value| > 0
  }

  predicate IsKvWrite(e: Effect) { e.KvWrite? }

  /** Whether a push writes: the directory is there, the user did not
      decline, the file had entries and the reference is valid. */
  predicate Writes(secretsPath: string, force: bool, w: PushWorld)
  {
    w.cwdAccessible && Proceeds(force, w) && HasSecrets(w) && ReadKv2Path(secretsPath).Success?
  }

  /** The effects before the env file is read: the directory check, then,
      unless forced, the existence check and a prompt if the path exists. */
  function Asked(secretsPath: string, cwd: string, force: bool, w: PushWorld): (effects: seq<Effect>)
    ensures forall e :: e in effects ==> !IsKvWrite(e) && !e.EnvFileRead?
  {
    [FileCheck(cwd)] + (if force then [] else [SecretPathCheck(secretsPath)])
    + (if !force && w.secretExists then [Prompt] else [])
  }

  /** The action. An inaccessible working directory is thrown before
      anything else; the existence check and prompt happen only when not
      forced; a declined prompt aborts with exit code 0 before the file is
      read; an unreadable or empty file ends with exit code 0 and nothing
      written; the secret reference is parsed only then, and an invalid one
      is thrown. */
  function Push(envFile: string, secretsPath: string, cwd: string, force: bool, w: PushWorld): (r: Run)
    ensures |r.effects| >= 1 && r.effects[0] == FileCheck(w.absolute(cwd))
    ensures !w.cwdAccessible ==> r == Run([FileCheck(w.absolute(cwd))], Failed(PathDoesNotExist(cwd)))
    ensures r.outcome.Failed? <==>
              !w.cwdAccessible || (Proceeds(force, w) && HasSecrets(w) && ReadKv2Path(secretsPath).Failure?)
    ensures r.outcome.Exit? ==> r.outcome.code == 0
  {
    match ResolveAccessiblePath(cwd, w.absolute, w.cwdAccessible)
    case Failure(e) => Run([FileCheck(w.absolute(cwd))], Failed(e))
    case Success(resolvedCwd) =>
      var asked := Asked(secretsPath, resolvedCwd, force, w);
      if !Proceeds(force, w) then Run(asked + [Say(Aborting)], Exit(0))
      else
        var envFilePath := w.resolve(resolvedCwd, envFile);
        var read := asked + [EnvFileRead(envFilePath)];
        if !HasSecrets(w) then Run(read + [Say(NothingToPush(envFilePath))], Exit(0))
        else match ReadKv2Path(secretsPath)
          case Failure(e) => Run(read, Failed(e))
          case Success(p) =>
            Run(read + [KvWrite(p.mountPath, p.path, w.parsed.value), Say(SecretsWritten)], Exit(0))
  }

  /** The user is asked exactly when the push is not forced and the secret
      path exists, and the existence is checked exactly when not forced. */
  lemma PushAsksOnlyOnConflict(envFile: string, secretsPath: string, cwd: string, force: bool, w: PushWorld)
    ensures Prompt in Push(envFile, secretsPath, cwd, force, w).effects
        <==> w.cwdAccessible && !force && w.secretExists
    ensures SecretPathCheck(secretsPath) in Push(envFile, secretsPath, cwd, force, w).effects
        <==> w.cwdAccessible && !force
  {
    var r := Push(envFile, secretsPath, cwd, force, w);
    if w.cwdAccessible {
      var asked := Asked(secretsPath, w.absolute(cwd), force, w);
      assert asked <= r.effects;
      assert forall e :: e in r.effects && e !in asked ==> !e.Prompt? && !e.SecretPathCheck?;
    }
  }

  /** The env file is read exactly when the run gets past the directory
      check and the prompt. */
  lemma PushReadsOnlyWhenProceeding(envFile: string, secretsPath: string, cwd: string, force: bool, w: PushWorld)
    ensures EnvFileRead(w.resolve(w.absolute(cwd), envFile)) in Push(envFile, secretsPath, cwd, force, w).effects
        <==> w.cwdAccessible && Proceeds(force, w)
  {
  }

  /** A write carries exactly the parsed entries, to the engine and path
      the reference names. */
  lemma PushWritesParsedEntries(envFile: string, secretsPath: string, cwd: string, force: bool, w: PushWorld,
                                e: Effect)
    requires e in Push(envFile, secretsPath, cwd, force, w).effects && IsKvWrite(e)
    ensures Writes(secretsPath, force, w)
    ensures e == KvWrite(ReadKv2Path(secretsPath).value.mountPath, ReadKv2Path(secretsPath).value.path,
                         w.parsed.value)
  {
  }

  /** At most one write happens, exactly when `Writes` holds. */
  lemma PushWritesOnce(envFile: string, secretsPath: string, cwd: string, force: bool, w: PushWorld)
    ensures Count(Push(envFile, secretsPath, cwd, force, w).effects, IsKvWrite)
         == if Writes(secretsPath, force, w) then 1 else 0
  {
    var r := Push(envFile, secretsPath, cwd, force, w);
    if !w.cwdAccessible {
      NoWrites(r.effects);
    } else {
      var asked := Asked(secretsPath, w.absolute(cwd), force, w);
      var envFilePath := w.resolve(w.absolute(cwd), envFile);
      var read := asked + [EnvFileRead(envFilePath)];
      if !Proceeds(force, w) {
        NoWrites(r.effects);
      } else if !HasSecrets(w) {
        NoWrites(r.effects);
      } else if ReadKv2Path(secretsPath).Failure? {
        NoWrites(r.effects);
      } else {
        var p := ReadKv2Path(secretsPath).value;
        var write := KvWrite(p.mountPath, p.path, w.parsed.value);
        assert r.effects == read + [write, Say(SecretsWritten)];
        OneWrite(read, write);
      }
    }
  }

  /** A run with no write counts none. */
  lemma NoWrites(effects: seq<Effect>)
    requires forall i :: 0 <= i < |effects| ==> !IsKvWrite(effects[i])
    ensures Count(effects, IsKvWrite) == 0
  {
    CountZero(effects, IsKvWrite);
  }

  lemma OneWrite(read: seq<Effect>, write: Effect)
    requires forall i :: 0 <= i < |read| ==> !IsKvWrite(read[i])
    requires IsKvWrite(write)
    ensures Count(read + [write, Say(SecretsWritten)], IsKvWrite) == 1
  {
    NoWrites(read);
    CountAppend(read, [write, Say(SecretsWritten)], IsKvWrite);
    CountCons(write, [Say(SecretsWritten)], IsKvWrite);
    CountCons(Say(SecretsWritten), [], IsKvWrite);
    assert [write, Say(SecretsWritten)] == [write] + [Say(SecretsWritten)];
  }

  /** With `--force` the secret path is never checked and the user is never
      asked. */
  lemma ForceNeverAsks(envFile: string, secretsPath: string, cwd: string, w: PushWorld)
    ensures Prompt !in Push(envFile, secretsPath, cwd, true, w).effects
    ensures SecretPathCheck(secretsPath) !in Push(envFile, secretsPath, cwd, true, w).effects
  {
  }

  /** A declined overwrite ends the run before the env file is read, with
      exit code 0 and nothing written. */
  lemma DeclinedOverwriteWritesNothing(envFile: string, secretsPath: string, cwd: string, w: PushWorld)
    requires w.cwdAccessible && w.secretExists && !w.confirm
    ensures Push(envFile, secretsPath, cwd, false, w)
         == Run([FileCheck(w.absolute(cwd)), SecretPathCheck(secretsPath), Prompt, Say(Aborting)], Exit(0))
  {
  }

  /** The secret reference is validated only after the existence check and
      the prompt: an invalid reference to a path reported as existing still
      costs a backend call and a question before it is rejected. */
  lemma InvalidReferenceRejectedLate(envFile: string, secretsPath: string, cwd: string, w: PushWorld)
    requires ReadKv2Path(secretsPath).Failure?
    requires w.cwdAccessible && w.secretExists && w.confirm && HasSecrets(w)
    ensures Push(envFile, secretsPath, cwd, false, w)
         == Run([FileCheck(w.absolute(cwd)), SecretPathCheck(secretsPath), Prompt, EnvFileRead(w.resolve(w.absolute(cwd), envFile))],
                Failed(InvalidKv2Path(secretsPath)))
  {
  }

  /** The command, with the default (unsealed) client need. */
  function PushSpec(w: PushWorld): CommandSpec
  {
    CommandSpec("push <env-file> <secrets-path>", PushSchema, None,
                (options, vc) => Push(StrOf(Get(options, "envFile")), StrOf(Get(options, "secretsPath")),
                                      StrOf(Get(options, "cwd")), IsSet(Get(options, "force")), w))
  }
}

=== FILE: records.dfy ===
/** Command options as the JavaScript code sees them: plain objects whose
    properties are strings, string arrays, booleans, or missing. */
module Records {

  datatype Value = Absent | Str(str: string) | Strs(items: seq<string>) | Flag(flag: bool)

  /** An options object. A key mapped to `Absent` is a property explicitly
      set to `undefined`, which reads the same as a missing one. */
  type Record = map<string, Value>

  /** `r[key]`, with `undefined` for a missing property. */
  function Get(r: Record, key: string): Value
  {
    if key in r then r[key] else Absent
  }

  /** JavaScript truthiness: empty strings, `false` and `undefined` are falsy;
      arrays are truthy even when empty. */
  predicate Truthy(v: Value)
  {
    match v
    case Absent => false
    case Str(s) => s != ""
    case Strs(_) => true
    case Flag(b) => b
  }

  /** `{ ...low, ...high }`: every property of either object, with `high`
      winning where both have one. */
  function Spread(low: Record, high: Record): (r: Record)
    ensures r.Keys == low.Keys + high.Keys
    ensures forall k :: k in high ==> r[k] == high[k]
    ensures forall k :: k in low && k !in high ==> r[k] == low[k]
  {
    low + high
  }

  /** The string in `v`, or `""` when it holds none. */
  function StrOf(v: Value): string
  {
    if v.Str? then v.str else ""
  }

  /** The strings in `v`, or none when it holds no array. */
  function StrsOf(v: Value): seq<string>
  {
    if v.Strs? then v.items else []
  }

  /** Whether `v` is the boolean `true`. */
  predicate IsSet(v: Value)
  {
    v == Flag(true)
  }
}

/** Object schemas as the commands declare them with zod (`z.object`):
    each key has a rule saying which values it accepts and what a missing
    value defaults to. Parsing keeps only the declared keys. */
module Schemas {
  import opened Wrappers
  import opened Types
  import opened Records

  datatype Rule =
    | RequiredString                     // z.string()
    | OptionalString                     // z.string().optional()
    | StringOr(fallback: string)         // z.string().default(fallback)
    | OneOf(allowed: seq<string>, fallback: string)   // z.enum(allowed).default(fallback)
    | RequiredBool                       // z.boolean()
    | BoolOr(flagDefault: bool)          // z.boolean().default(flagDefault)
    | StringsOr(itemsDefault: seq<string>) // z.array(z.string()).default(itemsDefault)

  /** An object schema: the declared keys and the rule for each. */
  type Schema = map<string, Rule>

  /** Whether `rule` accepts the input value `v`. A default stands in for
      a missing value and is checked like one. */
  predicate Accepts(rule: Rule, v: Value)
  {
    match rule
    case RequiredString => v.Str?
    case OptionalString => v.Str? || v.Absent?
    case StringOr(_) => v.Str? || v.Absent?
    case OneOf(allowed, d) => (v.Str? && v.str in allowed) || (v.Absent? && d in allowed)
    case RequiredBool => v.Flag?
    case BoolOr(_) => v.Flag? || v.Absent?
    case StringsOr(_) => v.Strs? || v.Absent?
  }

  /** The value an accepted input becomes: itself, or the rule's default
      when it is missing (`Absent` for an optional property left out). */
  function Coerce(rule: Rule, v: Value): (r: Value)
    ensures Accepts(rule, v) ==> Conforms(rule, r)
    ensures !v.Absent? ==> r == v
    ensures v.Absent? && rule.StringOr? ==> r == Str(rule.fallback)
    ensures v.Absent? && rule.OneOf? ==> r == Str(rule.fallback)
    ensures v.Absent? && rule.BoolOr? ==> r == Flag(rule.flagDefault)
    ensures v.Absent? && rule.StringsOr? ==> r == Strs(rule.itemsDefault)
    ensures v.Absent? && (rule.RequiredString? || rule.OptionalString? || rule.RequiredBool?) ==> r == Absent
  {
    if !v.Absent? then v
    else match rule
      case StringOr(d) => Str(d)
      case OneOf(_, d) => Str(d)
      case BoolOr(d) => Flag(d)
      case StringsOr(d) => Strs(d)
      case _ => Absent
  }

  /** The shape a value has after it passed `rule`. */
  predicate Conforms(rule: Rule, v: Value)
  {
    match rule
    case RequiredString => v.Str?
    case OptionalString => v.Str? || v.Absent?
    case StringOr(_) => v.Str?
    case OneOf(allowed, _) => v.Str? && v.str in allowed
    case RequiredBool => v.Flag?
    case BoolOr(_) => v.Flag?
    case StringsOr(_) => v.Strs?
  }

  /** The keys whose input values the schema rejects. */
  function Rejected(schema: Schema, input: Record): set<string>
  {
    set k | k in schema && !Accepts(schema[k], Get(input, k))
  }

  /** `schema.parse(input)`: either every declared key is accepted, and the
      result holds exactly the declared keys that have a value (unknown keys
      are dropped), each of the declared shape, supplied values unchanged and
      missing ones defaulted; or the parse fails naming every rejected key. */
  function Parse(schema: Schema, input: Record): (r: Result<Record, Error>)
    ensures r.Failure? <==> Rejected(schema, input) != {}
    ensures r.Failure? ==> r.error == ValidationError(Rejected(schema, input))
    ensures r.Success? ==> r.value.Keys <= schema.Keys
    ensures r.Success? ==> forall k :: k in schema ==> Conforms(schema[k], Get(r.value, k))
    ensures r.Success? ==> forall k :: k in schema && !Get(input, k).Absent? ==> Get(r.value, k) == Get(input, k)
    ensures r.Success? ==> forall k :: k in schema && Get(input, k).Absent? ==> Get(r.value, k) == Coerce(schema[k], Absent)
  {
    var bad := Rejected(schema, input);
    if bad != {} then Failure(ValidationError(bad))
    else
      var kept := map k | k in schema && Coerce(schema[k], Get(input, k)) != Absent
                        :: Coerce(schema[k], Get(input, k));
      assert forall k :: k in schema ==> Accepts(schema[k], Get(input, k)) by {
        forall k | k in schema ensures Accepts(schema[k], Get(input, k)) {
          assert k !in bad;
        }
      }
      assert forall k :: k in schema ==> Get(kept, k) == Coerce(schema[k], Get(input, k));
      Success(kept)
  }

  /** A key the schema does not declare never survives parsing. */
  lemma UndeclaredKeyDropped(schema: Schema, input: Record, key: string)
    requires key !in schema
    requires Parse(schema, input).Success?
    ensures Get(Parse(schema, input).value, key) == Absent
  {
  }
}

=== FILE: remove.dfy ===
/** The `rm` command (src/commands/remove.ts): deletes given versions of a
    KV version-2 secret, or its metadata and every version when no version
    is given, after checking that the path exists and, unless forced,
    asking for confirmation. The backend's replies to the delete calls are
    not inspected by the command. */
module RemoveCommand {
  import opened Wrappers
  import opened Types
  import opened Records
  import opened Schemas
  import opened Numbers
  import opened Vault
  import opened Command

  const RemoveSchema: Schema := map[
    "secretsPath" := RequiredString, "versions" := StringsOr([]),
    "profile" := OptionalString, "endpointUrl" := OptionalString, "token" := OptionalString,
    "force" := RequiredBool]

  /** The answers for one removal: whether the secret path exists and the
      answer to the confirmation prompt. */
  datatype RemoveWorld = RemoveWorld(secretExists: bool, confirm: bool)

  /** What `parseInt` makes of each version, in order. */
  function ParseAll(versions: seq<string>): (parsed: seq<Option<int>>)
    ensures |parsed| == |versions|
    ensures forall i :: 0 <= i < |versions| ==> parsed[i] == ParseInt(versions[i])
  {
    seq(|versions|, i requires 0 <= i < |versions| => ParseInt(versions[i]))
  }

  /** The position of the first NaN, if any: the loop over the versions
      throws at the first one that does not parse. */
  function FirstNaN(parsed: seq<Option<int>>): (r: Option<nat>)
    ensures r.None? <==> forall i :: 0 <= i < |parsed| ==> parsed[i].Some?
    ensures r.Some? ==> r.value < |parsed| && parsed[r.value].None?
                        && forall j :: 0 <= j < r.value ==> parsed[j].Some?
    decreases |parsed|
  {
    if |parsed| == 0 then None
    else if parsed[0].None? then Some(0)
    else
      var rest := FirstNaN(parsed[1..]);
      assert forall i :: 0 < i < |parsed| ==> parsed[i] == parsed[1..][i - 1];
      if rest.Some? then Some(rest.value + 1) else None
  }

  /** `.filter((v) => !isNaN(parseInt(v))).map((v) => parseInt(v))`: the
      numbers that parsed, in order. Once nothing is NaN, nothing is
      filtered out and the i-th number is the i-th result. */
  function VersionNumbers(parsed: seq<Option<int>>): (ns: seq<int>)
    ensures |ns| <= |parsed|
    ensures (forall i :: 0 <= i < |parsed| ==> parsed[i].Some?) ==>
              |ns| == |parsed| && forall i :: 0 <= i < |parsed| ==> ns[i] == parsed[i].value
    decreases |parsed|
  {
    if |parsed| == 0 then []
    else
      var rest := VersionNumbers(parsed[1..]);
      assert forall i :: 0 < i < |parsed| ==> parsed[i] == parsed[1..][i - 1];
      match parsed[0]
      case None => rest
      case Some(n) => [n] + rest
  }

  predicate IsDelete(e: Effect) { e.KvDeleteVersions? || e.KvDeleteMetadata? }

  /** The action, given what `parseInt` made of each version. A missing
      path is reported with exit code 0; unless forced, a declined
      confirmation aborts with exit code 0; the secret reference is parsed
      only then; with versions, every one must parse as a number before the
      single versions delete is sent, otherwise the first bad one is
      thrown; with no versions, the metadata is deleted. */
  function Removal(secretsPath: string, versions: seq<string>, parsed: seq<Option<int>>, force: bool,
                   w: RemoveWorld): (r: Run)
    requires |parsed| == |versions|
    ensures |r.effects| >= 1 && r.effects[0] == SecretPathCheck(secretsPath)
    ensures Prompt in r.effects <==> w.secretExists && !force
    ensures r.outcome.Exit? ==> r.outcome.code == 0
    ensures r.outcome.Failed? <==>
              w.secretExists && (force || w.confirm)
              && (ReadKv2Path(secretsPath).Failure? || FirstNaN(parsed).Some?)
  {
    var checked := [SecretPathCheck(secretsPath)];
    if !w.secretExists then Run(checked + [Say(NothingToRemove(secretsPath))], Exit(0))
    else
      var asked := checked + (if force then [] else [Prompt]);
      if !force && !w.confirm then Run(asked + [Say(Aborted)], Exit(0))
      else match ReadKv2Path(secretsPath)
        case Failure(e) => Run(asked, Failed(e))
        case Success(p) =>
          if |versions| > 0 then
            match FirstNaN(parsed)
            case Some(i) => Run(asked, Failed(InvalidVersion(versions[i])))
            case None =>
              Run(asked + [KvDeleteVersions(p.mountPath, p.path, VersionNumbers(parsed)), Say(Removed(secretsPath))],
                  Exit(0))
          else
            Run(asked + [KvDeleteMetadata(p.mountPath, p.path), Say(Removed(secretsPath))], Exit(0))
  }

  /** The `rm` action on the versions as typed. */
  function Remove(secretsPath: string, versions: seq<string>, force: bool, w: RemoveWorld): Run
  {
    Removal(secretsPath, versions, ParseAll(versions), force, w)
  }

  /** Whether a removal deletes: the path exists, the user agreed or it was
      forced, the reference is valid and no version is NaN. */
  predicate Deletes(secretsPath: string, parsed: seq<Option<int>>, force: bool, w: RemoveWorld)
  {
    w.secretExists && (force || w.confirm) && ReadKv2Path(secretsPath).Success? && FirstNaN(parsed).None?
  }

  /** The delete a removal that deletes sends: a versions delete carrying
      the parsed numbers, or a metadata delete when no version was given. */
  function ExpectedDelete(secretsPath: string, versions: seq<string>, parsed: seq<Option<int>>): Effect
    requires ReadKv2Path(secretsPath).Success?
  {
    var p := ReadKv2Path(secretsPath).value;
    if |versions| > 0 then KvDeleteVersions(p.mountPath, p.path, VersionNumbers(parsed))
    else KvDeleteMetadata(p.mountPath, p.path)
  }

  /** Exactly one delete happens when `Deletes` holds and none otherwise;
      the one that happens is the one asked for. */
  lemma RemovalDeletesOnce(secretsPath: string, versions: seq<string>, parsed: seq<Option<int>>, force: bool,
                           w: RemoveWorld)
    requires |parsed| == |versions|
    ensures Count(Removal(secretsPath, versions, parsed, force, w).effects, IsDelete)
         == if Deletes(secretsPath, parsed, force, w) then 1 else 0
    ensures Deletes(secretsPath, parsed, force, w) ==>
              ExpectedDelete(secretsPath, versions, parsed) in Removal(secretsPath, versions, parsed, force, w).effects
  {
    var r := Removal(secretsPath, versions, parsed, force, w);
    var checked := [SecretPathCheck(secretsPath)];
    var asked := checked + (if force then [] else [Prompt]);
    if !w.secretExists {
      assert r.effects == checked + [Say(NothingToRemove(secretsPath))];
      NoDeletes(r.effects);
    } else if !force && !w.confirm {
      assert r.effects == asked + [Say(Aborted)];
      NoDeletes(r.effects);
    } else if ReadKv2Path(secretsPath).Failure? || FirstNaN(parsed).Some? {
      assert r.effects == asked;
      NoDeletes(r.effects);
    } else {
      var d := ExpectedDelete(secretsPath, versions, parsed);
      assert r.effects == asked + [d, Say(Removed(secretsPath))];
      OneDelete(asked, d, Removed(secretsPath));
    }
  }

  /** The same for the versions as typed. */
  lemma RemoveDeletesOnce(secretsPath: string, versions: seq<string>, force: bool, w: RemoveWorld)
    ensures Count(Remove(secretsPath, versions, force, w).effects, IsDelete)
         == if Deletes(secretsPath, ParseAll(versions), force, w) then 1 else 0
    ensures Deletes(secretsPath, ParseAll(versions), force, w) ==>
              ExpectedDelete(secretsPath, versions, ParseAll(versions)) in Remove(secretsPath, versions, force, w).effects
  {
    RemovalDeletesOnce(secretsPath, versions, ParseAll(versions), force, w);
  }

  /** A run made only of path checks, prompts and messages deletes nothing. */
  lemma NoDeletes(effects: seq<Effect>)
    requires forall i :: 0 <= i < |effects| ==> effects[i].SecretPathCheck? || effects[i].Prompt? || effects[i].Say?
    ensures Count(effects, IsDelete) == 0
  {
    CountZero(effects, IsDelete);
  }

  lemma OneDelete(asked: seq<Effect>, d: Effect, n: Notice)
    requires forall i :: 0 <= i < |asked| ==> asked[i].SecretPathCheck? || asked[i].Prompt?
    requires IsDelete(d)
    ensures Count(asked + [d, Say(n)], IsDelete) == 1
  {
    NoDeletes(asked);
    CountAppend(asked, [d, Say(n)], IsDelete);
    CountCons(d, [Say(n)], IsDelete);
    CountCons(Say(n), [], IsDelete);
    assert [d, Say(n)] == [d] + [Say(n)];
  }

  /** A version that `parseInt` reads as NaN stops the removal before any
      delete, naming the first such version: every version before it
      parses. */
  lemma InvalidVersionDeletesNothing(secretsPath: string, versions: seq<string>, force: bool, w: RemoveWorld,
                                     k: nat)
    requires w.secretExists && (force || w.confirm) && ReadKv2Path(secretsPath).Success?
    requires k < |versions| && ParseInt(versions[k]).None?
    requires forall j :: 0 <= j < k ==> ParseInt(versions[j]).Some?
    ensures Remove(secretsPath, versions, force, w).outcome == Failed(InvalidVersion(versions[k]))
    ensures Count(Remove(secretsPath, versions, force, w).effects, IsDelete) == 0
  {
    var parsed := ParseAll(versions);
    assert parsed[k].None? && forall j :: 0 <= j < k ==> parsed[j].Some?;
    FirstNaNAt(parsed, k);
    RemovalDeletesOnce(secretsPath, versions, parsed, force, w);
  }

  lemma FirstNaNAt(parsed: seq<Option<int>>, k: nat)
    requires k < |parsed| && parsed[k].None?
    requires forall j :: 0 <= j < k ==> parsed[j].Some?
    ensures FirstNaN(parsed) == Some(k)
  {
  }

  /** Version numbers written in decimal are deleted as exactly those
      numbers. */
  lemma {:induction false} DecimalVersionsRoundTrip(ns: seq<nat>)
    ensures var parsed := ParseAll(seq(|ns|, i requires 0 <= i < |ns| => Decimal(ns[i])));
            FirstNaN(parsed).None? && VersionNumbers(parsed) == ns
  {
    var versions := seq(|ns|, i requires 0 <= i < |ns| => Decimal(ns[i]));
    forall i | 0 <= i < |ns| ensures ParseInt(versions[i]) == Some(ns[i] as int) {
      DecimalRoundTrip(ns[i]);
    }
    var parsed := ParseAll(versions);
    assert forall i :: 0 <= i < |ns| ==> parsed[i] == Some(ns[i] as int);
  }

  /** The command, with the default (unsealed) client need. */
  function RemoveSpec(w: RemoveWorld): CommandSpec
  {
    CommandSpec("rm <secrets-path> [versions...]", RemoveSchema, None,
                (options, vc) => Remove(StrOf(Get(options, "secretsPath")), StrsOf(Get(options, "versions")),
                                        IsSet(Get(options, "force")), w))
  }
}

=== FILE: seal.dfy ===
/** The `seal` command (src/commands/seal.ts). It takes a client in any
    backend state, asks for the seal status itself, and seals only a
    backend that is unsealed. The backend's replies are parameters; the
    reply to the seal call itself is not inspected by the command. */
module SealCommand {
  import opened Wrappers
  import opened Types
  import opened Records
  import opened Schemas
  import opened Profiles
  import opened Helpers
  import opened Command

  /** The options schema as written: a profile and an endpoint URL, but no
      token, so zod strips any token that reaches it. */
  const SealSchemaAsWritten: Schema := map["profile" := OptionalString, "endpointUrl" := OptionalString]

  /** The schema with the token an explicit endpoint needs to be usable. */
  const SealSchema: Schema :=
    map["profile" := OptionalString, "endpointUrl" := OptionalString, "token" := OptionalString]

  predicate IsSealCall(e: Effect) { e.SealCall? }

  /** The action: a status error is thrown; an already sealed backend is
      reported with exit code 0 and no seal call; otherwise exactly one seal
      call is made and success reported. */
  function Seal(status: Result<SealStatus, Error>): (r: Run)
    ensures |r.effects| >= 1 && r.effects[0] == StatusQuery
    ensures status.Failure? <==> r.outcome.Failed?
    ensures status.Failure? ==> r == Run([StatusQuery], Failed(status.error))
    ensures status.Success? ==> r.outcome == Exit(0)
    ensures Count(r.effects, IsSealCall) == (if status.Success? && !status.value.sealed then 1 else 0)
  {
    match status
    case Failure(e) => Run([StatusQuery], Failed(e))
    case Success(s) =>
      if s.sealed then Run([StatusQuery, Say(AlreadySealed)], Exit(0))
      else Run([StatusQuery, SealCall, Say(VaultSealed)], Exit(0))
  }

  function SealCommandWith(schema: Schema, status: Result<SealStatus, Error>): CommandSpec
  {
    CommandSpec("seal", schema, Some(AnyState), (options, vc) => Seal(status))
  }

  /** The command as the rest of the model uses it. */
  function SealSpec(status: Result<SealStatus, Error>): CommandSpec
  {
    SealCommandWith(SealSchema, status)
  }

  /** The backend's sealed flag after a run that found it at `sealed`: a
      seal call seals it, and nothing else changes it. */
  predicate SealedAfter(sealed: bool, r: Run)
  {
    sealed || SealCall in r.effects
  }

  /** Running the command twice against the same backend, the second run
      asked about the state the first left behind: the backend ends up
      sealed, the second run makes no seal call, and one seal call is made
      in all exactly when the backend started unsealed. */
  lemma SealTwiceSealsOnce(sealed: bool, t: int, progress: int)
    ensures var first := Seal(Success(SealStatus(sealed, t, progress)));
            var second := Seal(Success(SealStatus(SealedAfter(sealed, first), t, progress)));
            SealedAfter(sealed, first) && SealedAfter(SealedAfter(sealed, first), second)
            && Count(second.effects, IsSealCall) == 0
            && Count(first.effects, IsSealCall) + Count(second.effects, IsSealCall) == (if sealed then 0 else 1)
  {
    var first := Seal(Success(SealStatus(sealed, t, progress)));
    if !sealed {
      assert first.effects[1] == SealCall;
    }
  }

  /** As written, an invocation that names no profile can never resolve
      credentials, even with an endpoint URL and a token supplied: the token
      is stripped by the schema, so the command fails before any backend
      call. */
  lemma AsWrittenEndpointUnusable(status: Result<SealStatus, Error>, inv: Invocation, store: Store,
                                  st: Result<SealStatus, Error>)
    requires Options(SealCommandWith(SealSchemaAsWritten, status), inv).Success?
    requires ProfileName(Options(SealCommandWith(SealSchemaAsWritten, status), inv).value).None?
    ensures Dispatch(SealCommandWith(SealSchemaAsWritten, status), inv, store, st)
         == Run([], Failed(MissingCredentials))
  {
    var options := Options(SealCommandWith(SealSchemaAsWritten, status), inv).value;
    assert "token" !in SealSchemaAsWritten;
    assert Get(options, "token") == Absent;
  }

  /** With the token kept, an explicit endpoint URL and token reach the
      action, which runs with the client bound to them. */
  lemma EndpointAndTokenReachAction(status: Result<SealStatus, Error>, inv: Invocation, store: Store,
                                    st: Result<SealStatus, Error>, endpoint: string, token: string)
    requires endpoint != "" && token != ""
    requires Options(SealSpec(status), inv).Success?
    requires var options := Options(SealSpec(status), inv).value;
             ProfileName(options).None?
             && Get(options, "endpointUrl") == Str(endpoint) && Get(options, "token") == Str(token)
    ensures Dispatch(SealSpec(status), inv, store, st) == Seal(status)
  {
    var cmd := SealSpec(status);
    var options := Options(cmd, inv).value;
    assert ResolveCredentials(options, store) == Success(Profile(endpoint, token));
    AnyStateRunsAction(cmd, inv, store, st);
  }
}

=== FILE: strings.dfy ===
/** The handful of JavaScript string operations the command-line client
    relies on: `split` with a one-character separator, `join`, dropping
    empty parts (`filter((x) => x)`), `trim`, and removing a suffix.
    Every other module builds on these, so each is defined once here and
    related to the others by lemmas. */
module Strings {

  /** The parts of `s` between occurrences of `sep`, as `s.split(sep)`
      gives them for a one-character separator: there is always at least
      one part, and a leading, trailing or doubled separator yields an
      empty part. */
  function Split(s: string, sep: char): (parts: seq<string>)
    ensures |parts| >= 1
    ensures forall i :: 0 <= i < |parts| ==> sep !in parts[i]
    decreases |s|
  {
    if |s| == 0 then [""]
    else
      var rest := Split(s[1..], sep);
      if s[0] == sep then [""] + rest
      else [[s[0]] + rest[0]] + rest[1..]
  }

  /** `parts.join(sep)`. */
  function Join(parts: seq<string>, sep: char): string
    decreases |parts|
  {
    if |parts| == 0 then ""
    else if |parts| == 1 then parts[0]
    else parts[0] + [sep] + Join(parts[1..], sep)
  }

  /** `parts.filter((p) => p)`: the non-empty parts, in order. */
  function NonEmpty(parts: seq<string>): (kept: seq<string>)
    ensures |kept| <= |parts|
    ensures forall i :: 0 <= i < |kept| ==> kept[i] != "" && kept[i] in parts
    ensures forall i :: 0 <= i < |parts| && parts[i] != "" ==> parts[i] in kept
    decreases |parts|
  {
    if |parts| == 0 then []
    else if parts[0] == "" then NonEmpty(parts[1..])
    else [parts[0]] + NonEmpty(parts[1..])
  }

  /** The non-empty `sep`-separated segments of `s`. */
  function Segments(s: string, sep: char): seq<string>
  {
    NonEmpty(Split(s, sep))
  }

  /** All parts glued together with no separator. */
  function Concat(parts: seq<string>): string
    decreases |parts|
  {
    if |parts| == 0 then "" else parts[0] + Concat(parts[1..])
  }

  /** `s` with every occurrence of `c` removed. */
  function Without(s: string, c: char): (r: string)
    ensures c !in r
    ensures |r| <= |s|
    decreases |s|
  {
    if |s| == 0 then ""
    else if s[0] == c then Without(s[1..], c)
    else [s[0]] + Without(s[1..], c)
  }

  /** The white-space characters `String.prototype.trim` removes, restricted
      to those below U+0100 plus the byte-order mark. */
  predicate IsWhitespace(c: char)
  {
    c == ' ' || c == '\t' || c == '\n' || c == '\r' || c == '\U{000B}'
    || c == '\U{000C}' || c == '\U{00A0}' || c == '\U{FEFF}'
  }

  function TrimStart(s: string): (r: string)
    ensures |r| <= |s| && r == s[|s| - |r|..]
    ensures r == "" || !IsWhitespace(r[0])
    decreases |s|
  {
    if |s| > 0 && IsWhitespace(s[0]) then TrimStart(s[1..]) else s
  }

  function TrimEnd(s: string): (r: string)
    ensures |r| <= |s| && r == s[..|r|]
    ensures r == "" || !IsWhitespace(r[|r| - 1])
    decreases |s|
  {
    if |s| > 0 && IsWhitespace(s[|s| - 1]) then TrimEnd(s[..|s| - 1]) else s
  }

  /** `TrimStart` removes white space only. */
  lemma {:induction false} TrimStartDropsWhitespace(s: string)
    ensures forall i :: 0 <= i < |s| - |TrimStart(s)| ==> IsWhitespace(s[i])
    decreases |s|
  {
    if |s| > 0 && IsWhitespace(s[0]) {
      TrimStartDropsWhitespace(s[1..]);
      forall i | 0 <= i < |s| - |TrimStart(s)| ensures IsWhitespace(s[i]) {
        if i > 0 { assert s[i] == s[1..][i - 1]; }
      }
    }
  }

  /** `TrimEnd` removes white space only. */
  lemma {:induction false} TrimEndDropsWhitespace(s: string)
    ensures forall i :: |TrimEnd(s)| <= i < |s| ==> IsWhitespace(s[i])
    decreases |s|
  {
    if |s| > 0 && IsWhitespace(s[|s| - 1]) {
      TrimEndDropsWhitespace(s[..|s| - 1]);
      forall i | |TrimEnd(s)| <= i < |s| ensures IsWhitespace(s[i]) {
        if i < |s| - 1 { assert s[i] == s[..|s| - 1][i]; }
      }
    }
  }

  /** `s.trim()`: cuts white space from both ends, so the result neither
      starts nor ends with white space, and a string that already does not
      is returned unchanged. */
  function Trim(s: string): (r: string)
    ensures |r| <= |s|
    ensures r == "" || (!IsWhitespace(r[0]) && !IsWhitespace(r[|r| - 1]))
    ensures (s == "" || (!IsWhitespace(s[0]) && !IsWhitespace(s[|s| - 1]))) ==> r == s
  {
    TrimEnd(TrimStart(s))
  }

  /** `s.replace(/suf$/, '')` for a literal suffix: removes one trailing
      occurrence of `suf`, if there is one. */
  function StripSuffix(s: string, suf: string): (r: string)
    ensures |suf| <= |s| && s[|s| - |suf|..] == suf ==> r + suf == s
    ensures !(|suf| <= |s| && s[|s| - |suf|..] == suf) ==> r == s
  {
    if |suf| <= |s| && s[|s| - |suf|..] == suf then s[..|s| - |suf|] else s
  }

  /** Splitting and re-joining gives back the original string. */
  lemma {:induction false} JoinSplit(s: string, sep: char)
    ensures Join(Split(s, sep), sep) == s
    decreases |s|
  {
    if |s| > 0 {
      JoinSplit(s[1..], sep);
      var rest := Split(s[1..], sep);
      var parts := Split(s, sep);
      assert s == [s[0]] + s[1..];
      if s[0] == sep {
        assert parts == [""] + rest;
        assert parts[1..] == rest;
      } else if |rest| == 1 {
        assert parts == [[s[0]] + rest[0]];
      } else {
        assert parts[1..] == rest[1..];
        assert Join(rest, sep) == rest[0] + [sep] + Join(rest[1..], sep);
      }
    }
  }

  /** A separator-free prefix glues onto the first part. */
  lemma {:induction false} SplitPrefix(a: string, t: string, sep: char)
    requires sep !in a
    ensures Split(a + t, sep) == [a + Split(t, sep)[0]] + Split(t, sep)[1..]
    decreases |a|
  {
    if |a| == 0 {
      assert a + t == t;
      assert Split(t, sep) == [Split(t, sep)[0]] + Split(t, sep)[1..];
      assert a + Split(t, sep)[0] == Split(t, sep)[0];
    } else {
      SplitPrefix(a[1..], t, sep);
      assert (a + t)[1..] == a[1..] + t;
      assert (a + t)[0] == a[0];
      assert [a[0]] + (a[1..] + Split(t, sep)[0]) == a + Split(t, sep)[0];
    }
  }

  /** A leading separator contributes one empty part. */
  lemma SplitAfterSep(t: string, sep: char)
    ensures Split([sep] + t, sep) == [""] + Split(t, sep)
  {
    assert ([sep] + t)[1..] == t;
  }

  /** Joining separator-free parts and splitting again gives back the parts:
      the other direction of `JoinSplit`. */
  lemma {:induction false} SplitJoin(parts: seq<string>, sep: char)
    requires |parts| >= 1
    requires forall i :: 0 <= i < |parts| ==> sep !in parts[i]
    ensures Split(Join(parts, sep), sep) == parts
    decreases |parts|
  {
    if |parts| == 1 {
      SplitPrefix(parts[0], "", sep);
      assert parts[0] + "" == parts[0];
    } else {
      var tail := Join(parts[1..], sep);
      SplitJoin(parts[1..], sep);
      SplitAfterSep(tail, sep);
      SplitPrefix(parts[0], [sep] + tail, sep);
      assert Join(parts, sep) == parts[0] + ([sep] + tail);
      var after := Split([sep] + tail, sep);
      assert after[0] == "" && after[1..] == parts[1..];
      assert parts[0] + "" == parts[0];
      assert parts == [parts[0]] + parts[1..];
    }
  }

  /** A trailing separator contributes one empty part. */
  lemma {:induction false} SplitAppendSep(s: string, sep: char)
    ensures Split(s + [sep], sep) == Split(s, sep) + [""]
    decreases |s|
  {
    if |s| == 0 {
      assert s + [sep] == [sep] + "";
      SplitAfterSep("", sep);
    } else {
      SplitAppendSep(s[1..], sep);
      assert (s + [sep])[1..] == s[1..] + [sep];
      assert (s + [sep])[0] == s[0];
    }
  }

  lemma {:induction false} NonEmptyAppend(a: seq<string>, b: seq<string>)
    ensures NonEmpty(a + b) == NonEmpty(a) + NonEmpty(b)
    decreases |a|
  {
    if |a| == 0 {
      assert a + b == b;
    } else {
      NonEmptyAppend(a[1..], b);
      assert (a + b)[1..] == a[1..] + b;
      assert (a + b)[0] == a[0];
    }
  }

  lemma {:induction false} NonEmptyKeepsAll(parts: seq<string>)
    requires forall i :: 0 <= i < |parts| ==> parts[i] != ""
    ensures NonEmpty(parts) == parts
    decreases |parts|
  {
    if |parts| > 0 {
      NonEmptyKeepsAll(parts[1..]);
      assert parts == [parts[0]] + parts[1..];
    }
  }

  /** The parts of a split, glued back without separators, are the string
      with every separator removed. */
  lemma {:induction false} ConcatSplit(s: string, sep: char)
    ensures Concat(Split(s, sep)) == Without(s, sep)
    decreases |s|
  {
    if |s| > 0 {
      ConcatSplit(s[1..], sep);
      var rest := Split(s[1..], sep);
      var parts := Split(s, sep);
      if s[0] == sep {
        assert parts[1..] == rest;
      } else {
        assert parts[1..] == rest[1..];
        assert Concat(rest) == rest[0] + Concat(rest[1..]);
        assert Concat(parts) == [s[0]] + rest[0] + Concat(rest[1..]);
      }
    }
  }

  /** Dropping empty parts does not change their concatenation. */
  lemma {:induction false} ConcatNonEmpty(parts: seq<string>)
    ensures Concat(NonEmpty(parts)) == Concat(parts)
    decreases |parts|
  {
    if |parts| > 0 {
      ConcatNonEmpty(parts[1..]);
      if parts[0] != "" {
        var kept := [parts[0]] + NonEmpty(parts[1..]);
        assert kept[1..] == NonEmpty(parts[1..]);
      }
    }
  }

  /** Splitting around one separator splits each side independently. */
  lemma {:induction false} SplitAroundSep(a: string, b: string, sep: char)
    ensures Split(a + [sep] + b, sep) == Split(a, sep) + Split(b, sep)
    decreases |a|
  {
    if |a| == 0 {
      assert a + [sep] + b == [sep] + b;
      SplitAfterSep(b, sep);
    } else {
      var t := a[1..] + [sep] + b;
      var w := a + [sep] + b;
      assert w[1..] == t && w[0] == a[0];
      SplitAroundSep(a[1..], b, sep);
      var ra := Split(a[1..], sep);
      var rb := Split(b, sep);
      assert Split(t, sep) == ra + rb;
      if a[0] == sep {
        assert Split(w, sep) == [""] + (ra + rb);
        assert Split(a, sep) == [""] + ra;
      } else {
        assert Split(w, sep) == [[a[0]] + (ra + rb)[0]] + (ra + rb)[1..];
        assert (ra + rb)[0] == ra[0];
        assert (ra + rb)[1..] == ra[1..] + rb;
        assert Split(a, sep) == [[a[0]] + ra[0]] + ra[1..];
      }
    }
  }

  /** The segments around a separator are those of each side. */
  lemma SegmentsAroundSep(a: string, b: string, sep: char)
    ensures Segments(a + [sep] + b, sep) == Segments(a, sep) + Segments(b, sep)
  {
    SplitAroundSep(a, b, sep);
    NonEmptyAppend(Split(a, sep), Split(b, sep));
  }

  /** A leading separator adds no segment. */
  lemma SegmentsAfterSep(t: string, sep: char)
    ensures Segments([sep] + t, sep) == Segments(t, sep)
  {
    SplitAfterSep(t, sep);
    NonEmptyAppend([""], Split(t, sep));
    assert NonEmpty([""]) == [];
  }

  /** The position of the first `c` in `s`. */
  function IndexOf(s: string, c: char): (i: nat)
    requires c in s
    ensures i < |s| && s[i] == c && c !in s[..i]
    decreases |s|
  {
    if s[0] == c then 0
    else
      var j := IndexOf(s[1..], c);
      assert s[..j + 1] == [s[0]] + s[1..][..j];
      j + 1
  }

  /** `s` without its leading run of `c`. */
  function DropLeading(s: string, c: char): (r: string)
    ensures |r| <= |s|
    ensures r == "" || r[0] != c
    decreases |s|
  {
    if |s| > 0 && s[0] == c then DropLeading(s[1..], c) else s
  }

  /** `s.replace(/c+/g, c)`: every maximal run of `c` becomes a single `c`,
      scanning left to right. */
  function CollapseRuns(s: string, c: char): (r: string)
    ensures |r| <= |s|
    decreases |s|
  {
    if c !in s then s
    else
      var i := IndexOf(s, c);
      s[..i] + [c] + CollapseRuns(DropLeading(s[i + 1..], c), c)
  }

  /** `s.replace(/a/g, b)` for single characters. */
  function ReplaceAll(s: string, a: char, b: char): (r: string)
    ensures |r| == |s|
    ensures forall i :: 0 <= i < |s| ==> r[i] == (if s[i] == a then b else s[i])
    decreases |s|
  {
    if |s| == 0 then "" else [if s[0] == a then b else s[0]] + ReplaceAll(s[1..], a, b)
  }

  /** Collapsing runs of the separator leaves the segments unchanged. */
  lemma {:induction false} SegmentsIgnoreRuns(s: string, sep: char)
    ensures Segments(CollapseRuns(s, sep), sep) == Segments(s, sep)
    decreases |s|
  {
    if sep in s {
      var i := IndexOf(s, sep);
      var b := s[i + 1..];
      var d := DropLeading(b, sep);
      SegmentsIgnoreRuns(d, sep);
      SplitAt(s, i);
      SegmentsAroundSep(s[..i], b, sep);
      SegmentsAroundSep(s[..i], CollapseRuns(d, sep), sep);
      SegmentsDropLeading(b, sep);
    }
  }

  /** Leading separators add no segment. */
  lemma {:induction false} SegmentsDropLeading(s: string, sep: char)
    ensures Segments(DropLeading(s, sep), sep) == Segments(s, sep)
    decreases |s|
  {
    if |s| > 0 && s[0] == sep {
      SegmentsDropLeading(s[1..], sep);
      assert s == [sep] + s[1..];
      SegmentsAfterSep(s[1..], sep);
    }
  }

  /** After collapsing, no two neighbouring characters are both `c`. */
  lemma {:induction false} CollapsedHasNoRuns(s: string, c: char)
    ensures forall i :: 0 <= i < |CollapseRuns(s, c)| - 1 ==>
              !(CollapseRuns(s, c)[i] == c && CollapseRuns(s, c)[i + 1] == c)
    decreases |s|
  {
    if c in s {
      var i := IndexOf(s, c);
      var d := DropLeading(s[i + 1..], c);
      CollapsedHasNoRuns(d, c);
      var rest := CollapseRuns(d, c);
      assert rest == "" || rest[0] != c by {
        if d != "" {
          CollapseStartsLike(d, c);
        }
      }
      var r := s[..i] + [c] + rest;
      assert CollapseRuns(s, c) == r;
      forall j | 0 <= j < |r| - 1
        ensures !(r[j] == c && r[j + 1] == c)
      {
        if j < i {
          assert r[j] == s[..i][j];
        } else if j > i {
          assert r[j] == rest[j - i - 1] && r[j + 1] == rest[j - i];
        }
      }
    }
  }

  /** Collapsing keeps the first character when it is not `c`. */
  lemma CollapseStartsLike(s: string, c: char)
    requires s != "" && s[0] != c
    ensures CollapseRuns(s, c) != "" && CollapseRuns(s, c)[0] == s[0]
  {
    if c in s {
      var i := IndexOf(s, c);
      assert i > 0;
    }
  }

  /** Removing `c` after collapsing its runs is removing it outright. */
  lemma {:induction false} WithoutCollapsed(s: string, c: char)
    ensures Without(CollapseRuns(s, c), c) == Without(s, c)
    decreases |s|
  {
    if c in s {
      var i := IndexOf(s, c);
      var x, b := s[..i], s[i + 1..];
      assert Without(s, c) == Without(x, c) + Without(b, c) by {
        SplitAt(s, i);
        WithoutAroundSep(x, b, c);
      }
      var d := DropLeading(b, c);
      var y := CollapseRuns(d, c);
      assert Without(CollapseRuns(s, c), c) == Without(x, c) + Without(y, c) by {
        assert CollapseRuns(s, c) == x + [c] + y;
        WithoutAroundSep(x, y, c);
      }
      assert Without(y, c) == Without(b, c) by {
        WithoutCollapsed(d, c);
        WithoutDropLeading(b, c);
      }
    }
  }

  /** A string is its prefix, the character at `i`, and its suffix. */
  lemma SplitAt(s: string, i: nat)
    requires i < |s|
    ensures s == s[..i] + [s[i]] + s[i + 1..]
  {
  }

  lemma WithoutAroundSep(a: string, b: string, c: char)
    ensures Without(a + [c] + b, c) == Without(a, c) + Without(b, c)
  {
    WithoutAppend(a, [c] + b, c);
    assert a + [c] + b == a + ([c] + b);
    assert ([c] + b)[1..] == b;
  }

  lemma {:induction false} WithoutAppend(a: string, b: string, c: char)
    ensures Without(a + b, c) == Without(a, c) + Without(b, c)
    decreases |a|
  {
    if |a| == 0 {
      assert a + b == b;
    } else {
      WithoutAppend(a[1..], b, c);
      assert (a + b)[1..] == a[1..] + b;
      assert (a + b)[0] == a[0];
    }
  }

  lemma {:induction false} WithoutDropLeading(s: string, c: char)
    ensures Without(DropLeading(s, c), c) == Without(s, c)
    decreases |s|
  {
    if |s| > 0 && s[0] == c {
      WithoutDropLeading(s[1..], c);
    }
  }

  /** Every character of a part of `s` occurs in `s`. */
  lemma {:induction false} SplitChars(s: string, sep: char)
    ensures forall i, c :: 0 <= i < |Split(s, sep)| && c in Split(s, sep)[i] ==> c in s
    decreases |s|
  {
    if |s| > 0 {
      SplitChars(s[1..], sep);
      var rest := Split(s[1..], sep);
      assert forall i, c :: 0 <= i < |rest| && c in rest[i] ==> c in s by {
        forall i, c | 0 <= i < |rest| && c in rest[i] ensures c in s {
          assert c in s[1..];
        }
      }
      if s[0] != sep {
        var parts := Split(s, sep);
        forall i, c | 0 <= i < |parts| && c in parts[i] ensures c in s {
          if i == 0 {
            assert parts[0] == [s[0]] + rest[0];
          } else {
            assert parts[i] == rest[i];
          }
        }
      }
    }
  }

  /** Joining parts that avoid a set of characters, with a separator
      outside that set, gives a string that avoids it too. */
  lemma {:induction false} JoinAvoids(parts: seq<string>, sep: char, bad: set<char>)
    requires sep !in bad
    requires forall i, c :: 0 <= i < |parts| && c in parts[i] ==> c !in bad
    ensures forall c :: c in Join(parts, sep) ==> c !in bad
    decreases |parts|
  {
    if |parts| > 1 {
      JoinAvoids(parts[1..], sep, bad);
      assert forall c :: c in parts[0] ==> c !in bad;
    } else if |parts| == 1 {
      assert forall c :: c in parts[0] ==> c !in bad;
    }
  }

  /** Replacing a character that does not occur changes nothing. */
  lemma ReplaceAbsent(s: string, a: char, b: char)
    requires a !in s
    ensures ReplaceAll(s, a, b) == s
  {
  }
}

=== FILE: types.dfy ===
/** The values every part of the command-line client shares: the stored
    profile, the client handle, the seal status the backend reports, the
    errors that reach the error boundary, and the observable effects a
    command invocation produces. A command is modelled as a pure function
    from its inputs and the answers of the outside world (backend replies,
    file-system checks, prompt answers) to a `Run`: the effects it performed,
    in order, and how it ended. */
module Types {

  /** A named credential as stored in the profile file: `{ endpointUrl, token }`. */
  datatype Profile = Profile(endpointUrl: string, token: string)

  /** A backend client handle, bound to an endpoint and a token. */
  datatype Client = Client(endpoint: string, token: string)

  /** What `sealStatus()` and `unseal()` report: whether the backend is
      sealed, the threshold `t` of key shares, and the unseal progress. */
  datatype SealStatus = SealStatus(sealed: bool, t: int, progress: int)

  /** Everything that can be thrown to the error boundary (`handleError`). */
  datatype Error =
    | InvalidKv2Path(input: string)       // "Path is not a valid KV2 path. Got: …"
    | ProfileNotFound(name: string)       // "Profile … not found."
    | MissingCredentials                  // "Please provide a profile or endpoint url and token."
    | VaultIsSealed                       // "Vault is sealed. Please unseal Vault and try again."
    | BackendError(message: string)       // an error object returned by the backend client
    | ValidationError(keys: set<string>)  // a schema rejection, naming every offending option
    | PathDoesNotExist(path: string)      // "The path … does not exist."
    | InvalidVersion(version: string)     // "Invalid version number: …"

  /** Messages a command prints on its normal (non-thrown) paths. */
  datatype Notice =
    | AlreadyUnsealed                     // "Vault is already unsealed."
    | NotEnoughKeys                       // "The provided keys were not enough to unseal Vault."
    | VaultUnsealed                       // "Vault unsealed."
    | AlreadySealed                       // "Vault is already sealed."
    | VaultSealed                         // "Vault sealed."
    | Aborting                            // "Aborting" (make-profile, push)
    | AbortingPull                        // "Aborting." (pull)
    | Aborted                             // "Aborted." (remove)
    | ProfileCreated
    | NothingToPush(envFile: string)
    | SecretsWritten
    | CwdMissing(cwd: string)
    | SealedCannotPull
    | SecretPathMissing(path: string)
    | NoSecretsFound(path: string)
    | PrintedEnv(text: string)
    | PrintedEntries(entries: seq<(string, string)>)
    | EnvFileWritten(file: string)
    | NothingToRemove(path: string)
    | Removed(path: string)
    | EngineExists(mountPath: string)
    | Mounted(mountPath: string)

  /** One observable step of a command: a call to the backend, the file
      system, the profile store or the user, or a printed message. */
  datatype Effect =
    | StatusQuery                                            // sealStatus() / status()
    | SubmitKey(key: string)                                 // unseal({ key })
    | SealCall                                               // seal()
    | ReadStdin
    | SecretPathCheck(path: string)                          // doesSecretPathExist
    | SecretRead(path: string)                               // read({ path, engine: 'kv2' })
    | KvWrite(mountPath: string, path: string, data: map<string, string>)
    | KvDeleteVersions(mountPath: string, path: string, versions: seq<int>)
    | KvDeleteMetadata(mountPath: string, path: string)
    | EngineCheck(mountPath: string)                         // hasEngine
    | MountCall(mountPath: string, engineType: string)       // mount({ mountPath, type })
    | FileCheck(file: string)                                // fsAccess
    | EnvFileRead(file: string)                              // dotenv.config
    | FileWrite(file: string, content: string)
    | ProfileWrite(name: string, profile: Profile)           // setProfile
    | Prompt                                                 // one confirmation question
    | Say(notice: Notice)

  /** How an invocation ends: with a process exit code, or with an error
      routed to the error boundary (which reports it and exits with 1). */
  datatype Outcome = Exit(code: nat) | Failed(error: Error)

  datatype Run = Run(effects: seq<Effect>, outcome: Outcome)

  /** `run`, preceded by the effects that led up to it. */
  function After(effects: seq<Effect>, run: Run): (r: Run)
    ensures r.outcome == run.outcome
    ensures |r.effects| == |effects| + |run.effects|
    ensures r.effects[..|effects|] == effects && r.effects[|effects|..] == run.effects
  {
    Run(effects + run.effects, run.outcome)
  }

  /** The number of effects satisfying `p`. */
  function Count(effects: seq<Effect>, p: Effect -> bool): (n: nat)
    ensures n <= |effects|
    decreases |effects|
  {
    if |effects| == 0 then 0
    else (if p(effects[0]) then 1 else 0) + Count(effects[1..], p)
  }

  predicate IsPrompt(e: Effect) { e.Prompt? }

  /** Calls that change state outside the process: the backend's secrets,
      engines and seal state, files, and the profile store. */
  predicate IsWrite(e: Effect)
  {
    e.KvWrite? || e.KvDeleteVersions? || e.KvDeleteMetadata? || e.MountCall?
    || e.SealCall? || e.SubmitKey? || e.FileWrite? || e.ProfileWrite?
  }

  /** Calls that reach the backend at all. */
  predicate IsBackendCall(e: Effect)
  {
    e.StatusQuery? || e.SubmitKey? || e.SealCall? || e.SecretPathCheck? || e.SecretRead?
    || e.KvWrite? || e.KvDeleteVersions? || e.KvDeleteMetadata? || e.EngineCheck? || e.MountCall?
  }

  lemma {:induction false} CountAppend(a: seq<Effect>, b: seq<Effect>, p: Effect -> bool)
    ensures Count(a + b, p) == Count(a, p) + Count(b, p)
    decreases |a|
  {
    if |a| == 0 {
      assert a + b == b;
    } else {
      CountAppend(a[1..], b, p);
      assert (a + b)[1..] == a[1..] + b && (a + b)[0] == a[0];
    }
  }

  lemma CountCons(e: Effect, rest: seq<Effect>, p: Effect -> bool)
    ensures Count([e] + rest, p) == (if p(e) then 1 else 0) + Count(rest, p)
  {
    assert ([e] + rest)[1..] == rest;
  }

  lemma {:induction false} CountZero(effects: seq<Effect>, p: Effect -> bool)
    requires forall i :: 0 <= i < |effects| ==> !p(effects[i])
    ensures Count(effects, p) == 0
    decreases |effects|
  {
    if |effects| > 0 {
      CountZero(effects[1..], p);
    }
  }
}

=== FILE: unseal.dfy ===
/** The `unseal` command (src/commands/unseal.ts). It does not go through
    the shared command wrapper: it validates its own options, resolves
    credentials with a placeholder token (unsealing needs none), asks for
    the seal status, optionally reads the key shares from standard input,
    and submits key shares one at a time until the backend reports itself
    unsealed. The backend's replies and the text on standard input are
    parameters. */
module UnsealCommand {
  import opened Wrappers
  import opened Strings
  import opened Types
  import opened Records
  import opened Schemas
  import opened Profiles
  import opened Helpers

  const UnsealSchema: Schema := map[
    "profile" := OptionalString, "endpointUrl" := OptionalString,
    "keys" := StringsOr([]), "stdin" := BoolOr(false)]

  /** The token handed to credential resolution in place of a real one. */
  const PlaceholderToken: string := "NOT_REQUIRED"

  /** The characters that separate key shares read from standard input. */
  const Blanks: set<char> := {' ', '\t'}

  /** The line ending removal the command applies to standard input: one
      trailing `\n`, then one trailing `\r`, then one trailing `\r\n`. */
  function Unterminated(s: string): string
  {
    StripSuffix(StripSuffix(StripSuffix(s, "\n"), "\r"), "\r\n")
  }

  /** The key shares read from standard input: line endings removed, tabs
      turned into spaces, runs of spaces collapsed, split on spaces and
      empty parts dropped. Every share is non-empty and holds no blank. */
  function NormaliseStdin(s: string): (keys: seq<string>)
    ensures forall i :: 0 <= i < |keys| ==> keys[i] != ""
    ensures forall i, c :: 0 <= i < |keys| && c in keys[i] ==> c !in Blanks
  {
    var spaced := ReplaceAll(Unterminated(s), '\t', ' ');
    SegmentsIgnoreRuns(spaced, ' ');
    SplitChars(spaced, ' ');
    var keys := Segments(CollapseRuns(spaced, ' '), ' ');
    assert forall i, c :: 0 <= i < |keys| && c in keys[i] ==> c !in Blanks by {
      forall i, c | 0 <= i < |keys| && c in keys[i] ensures c !in Blanks {
        var parts := Split(spaced, ' ');
        assert keys[i] in parts;
        var j :| 0 <= j < |parts| && parts[j] == keys[i];
        assert c in spaced;
      }
    }
    keys
  }

  /** Nothing but the blanks is lost: the shares, put back together, are
      the input without its line ending and without any space or tab. */
  lemma NormaliseKeepsText(s: string)
    ensures Concat(NormaliseStdin(s)) == Without(ReplaceAll(Unterminated(s), '\t', ' '), ' ')
  {
    var spaced := ReplaceAll(Unterminated(s), '\t', ' ');
    SegmentsIgnoreRuns(spaced, ' ');
    ConcatNonEmpty(Split(spaced, ' '));
    ConcatSplit(spaced, ' ');
  }

  /** A key share as the command can read it back from standard input:
      non-empty, with no blank and no line-ending character. */
  predicate IsShare(k: string)
  {
    k != "" && forall c :: c in k ==> c !in Blanks && c != '\n' && c != '\r'
  }

  /** Removing the line ending from a line that ends in neither `\n` nor
      `\r` and then adding nothing, `\n` or `\r\n` gives the line back. */
  lemma UnterminatedLine(line: string, ending: string)
    requires line == "" || (line[|line| - 1] != '\n' && line[|line| - 1] != '\r')
    requires ending == "" || ending == "\n" || ending == "\r\n"
    ensures Unterminated(line + ending) == line
  {
    var n := |line|;
    assert StripSuffix(line, "\r") == line by {
      if n >= 1 { assert line[n - 1..] != "\r" by { assert line[n - 1..][0] == line[n - 1]; } }
    }
    assert StripSuffix(line, "\r\n") == line by {
      if n >= 2 { assert line[n - 2..] != "\r\n" by { assert line[n - 2..][1] == line[n - 1]; } }
    }
    if ending == "" {
      assert line + ending == line;
      assert StripSuffix(line, "\n") == line by {
        if n >= 1 { assert line[n - 1..] != "\n" by { assert line[n - 1..][0] == line[n - 1]; } }
      }
    } else if ending == "\n" {
      var s := line + ending;
      assert s[|s| - 1..] == "\n";
      assert s[..|s| - 1] == line;
    } else {
      var s := line + ending;
      assert s[|s| - 1..] == "\n";
      assert s[..|s| - 1] == line + "\r";
      var t := line + "\r";
      assert t[|t| - 1..] == "\r";
      assert t[..|t| - 1] == line;
    }
  }

  /** A line with no tab, ended by nothing, `\n` or `\r\n`, is read as
      its space-separated segments. */
  lemma ReadsLine(line: string, ending: string)
    requires '\t' !in line
    requires line == "" || (line[|line| - 1] != '\n' && line[|line| - 1] != '\r')
    requires ending == "" || ending == "\n" || ending == "\r\n"
    ensures NormaliseStdin(line + ending) == Segments(line, ' ')
  {
    UnterminatedLine(line, ending);
    ReplaceAbsent(line, '\t', ' ');
    SegmentsIgnoreRuns(line, ' ');
  }

  /** Shares joined by spaces hold no tab and end in no line-ending
      character. */
  lemma JoinedSharesAreOneLine(keys: seq<string>)
    requires forall i :: 0 <= i < |keys| ==> IsShare(keys[i])
    ensures var line := Join(keys, ' ');
            '\t' !in line && (line == "" || (line[|line| - 1] != '\n' && line[|line| - 1] != '\r'))
  {
    var line := Join(keys, ' ');
    var bad: set<char> := {'\t', '\n', '\r'};
    assert forall i, c :: 0 <= i < |keys| && c in keys[i] ==> c !in bad by {
      forall i, c | 0 <= i < |keys| && c in keys[i] ensures c !in bad {
        assert IsShare(keys[i]);
      }
    }
    JoinAvoids(keys, ' ', bad);
    if line != "" {
      assert line[|line| - 1] in line;
    }
  }

  /** The space-separated segments of shares joined by spaces are the
      shares. */
  lemma SegmentsOfJoinedShares(keys: seq<string>)
    requires forall i :: 0 <= i < |keys| ==> IsShare(keys[i])
    ensures Segments(Join(keys, ' '), ' ') == keys
  {
    if |keys| == 0 {
      assert Split("", ' ') == [""];
    } else {
      assert forall i :: 0 <= i < |keys| ==> ' ' !in keys[i] && keys[i] != "" by {
        forall i | 0 <= i < |keys| ensures ' ' !in keys[i] && keys[i] != "" {
          assert IsShare(keys[i]);
        }
      }
      SplitJoin(keys, ' ');
      NonEmptyKeepsAll(keys);
    }
  }

  /** Shares written on one line, separated by single spaces and ended by
      nothing, `\n` or `\r\n`, are read back exactly. */
  lemma NormaliseRoundTrip(keys: seq<string>, ending: string)
    requires forall i :: 0 <= i < |keys| ==> IsShare(keys[i])
    requires ending == "" || ending == "\n" || ending == "\r\n"
    ensures NormaliseStdin(Join(keys, ' ') + ending) == keys
  {
    JoinedSharesAreOneLine(keys);
    ReadsLine(Join(keys, ' '), ending);
    SegmentsOfJoinedShares(keys);
  }

  /** Shares on separate lines are not separated: only the last line ending
      is removed, and a line break inside the input stays inside a share. */
  lemma LineBreakDoesNotSeparate(a: string, b: string)
    requires IsShare(a) && IsShare(b)
    ensures NormaliseStdin(a + "\n" + b + "\n") == [a + "\n" + b]
  {
    var k := a + "\n" + b;
    TwoLinesAreOneWord(a, b);
    ReadsLine(k, "\n");
    SingleSegment(k);
  }

  /** Two shares around a line break make a word with no blank that does
      not end in a line-ending character. */
  lemma TwoLinesAreOneWord(a: string, b: string)
    requires IsShare(a) && IsShare(b)
    ensures var k := a + "\n" + b;
            ' ' !in k && '\t' !in k && k[|k| - 1] != '\n' && k[|k| - 1] != '\r'
  {
    var k := a + "\n" + b;
    assert forall c :: c in k ==> c !in Blanks by {
      forall c | c in k ensures c !in Blanks {
        assert c in a || c == '\n' || c in b;
      }
    }
    assert k[|k| - 1] == b[|b| - 1] && b[|b| - 1] in b;
  }

  /** A non-empty word with no space is its own single segment. */
  lemma SingleSegment(k: string)
    requires k != "" && ' ' !in k
    ensures Segments(k, ' ') == [k]
  {
    assert Split(k, ' ') == [k] by {
      SplitJoin([k], ' ');
    }
    NonEmptyKeepsAll([k]);
  }

  /** Whether a reply to a submitted key share ends the loop: an error, an
      unsealed backend, or progress back at 0. */
  predicate Stops(reply: Result<SealStatus, Error>)
  {
    reply.Failure? || !reply.value.sealed || reply.value.progress == 0
  }

  /** How the submission loop ended: how many shares were sent, and the
      error that ended it, if any. */
  datatype Submission = Submission(sent: nat, error: Option<Error>)

  /** The loop over the shares from position `i` on. `reply(j, k)` is the
      backend's answer to the `j`-th submission, of share `k`. The loop
      sends shares in order and stops right after the first reply that
      `Stops`, or after the last share; only an error reply is reported as
      an error. */
  function SubmitFrom(keys: seq<string>, reply: (nat, string) -> Result<SealStatus, Error>, i: nat)
    : (s: Submission)
    requires i <= |keys|
    ensures i <= s.sent <= |keys|
    ensures s.sent == i <==> i == |keys|
    ensures forall j :: i <= j < s.sent - 1 ==> !Stops(reply(j, keys[j]))
    ensures i < s.sent < |keys| ==> Stops(reply(s.sent - 1, keys[s.sent - 1]))
    ensures s.error.Some? <==> i < s.sent && reply(s.sent - 1, keys[s.sent - 1]).Failure?
    ensures s.error.Some? ==> s.error.value == reply(s.sent - 1, keys[s.sent - 1]).error
    decreases |keys| - i
  {
    if i == |keys| then Submission(i, None)
    else match reply(i, keys[i])
      case Failure(e) => Submission(i + 1, Some(e))
      case Success(st) =>
        if !st.sealed || st.progress == 0 then Submission(i + 1, None)
        else SubmitFrom(keys, reply, i + 1)
  }

  /** The answers for one unseal: the seal status, the text on standard
      input, and the replies to the submitted shares. */
  datatype UnsealWorld = UnsealWorld(
    status: Result<SealStatus, Error>,
    stdin: string,
    reply: (nat, string) -> Result<SealStatus, Error>)

  /** The shares the loop works through: those read from standard input
      when `--stdin` is set, the command-line ones otherwise. */
  function SharesOf(options: Record, w: UnsealWorld): seq<string>
  {
    if IsSet(Get(options, "stdin")) then NormaliseStdin(w.stdin) else StrsOf(Get(options, "keys"))
  }

  /** The options as credential resolution sees them: the token replaced by
      the placeholder. */
  function WithPlaceholder(options: Record): (r: Record)
    ensures Get(r, "token") == Str(PlaceholderToken)
    ensures Get(r, "profile") == Get(options, "profile")
    ensures Get(r, "endpointUrl") == Get(options, "endpointUrl")
  {
    Spread(options, map["token" := Str(PlaceholderToken)])
  }

  /** Whether the key loop runs: credentials resolve, the backend answers
      sealed, and at least as many shares as the threshold are available. */
  predicate LoopRuns(options: Record, store: Store, w: UnsealWorld)
  {
    ResolveCredentials(WithPlaceholder(options), store).Success?
    && w.status.Success? && w.status.value.sealed && w.status.value.t <= |SharesOf(options, w)|
  }

  /** One `SubmitKey` per share, in order. */
  function Submits(keys: seq<string>): (effects: seq<Effect>)
    ensures |effects| == |keys|
    ensures forall i :: 0 <= i < |keys| ==> effects[i] == SubmitKey(keys[i])
  {
    seq(|keys|, i requires 0 <= i < |keys| => SubmitKey(keys[i]))
  }

  /** What happens before the shares are counted: the status query, then
      the read of standard input when `--stdin` is set. No share is
      submitted there. */
  function Prelude(options: Record): (read: seq<Effect>)
    ensures forall i :: 0 <= i < |read| ==> !read[i].SubmitKey?
  {
    [StatusQuery] + (if IsSet(Get(options, "stdin")) then [ReadStdin] else [])
  }

  /** The action after option validation. Credentials are resolved with the
      placeholder token; a status error is thrown; an unsealed backend is
      reported with exit code 0; fewer shares than the threshold end with
      exit code 1 and nothing submitted; otherwise the loop runs and success
      is reported unless a reply was an error. */
  function UnsealAction(options: Record, store: Store, w: UnsealWorld): (r: Run)
    ensures ResolveCredentials(WithPlaceholder(options), store).Failure?
            ==> r == Run([], Failed(ResolveCredentials(WithPlaceholder(options), store).error))
    ensures ResolveCredentials(WithPlaceholder(options), store).Success? && w.status.Failure?
            ==> r == Run([StatusQuery], Failed(w.status.error))
    ensures ResolveCredentials(WithPlaceholder(options), store).Success? && w.status.Success? && !w.status.value.sealed
            ==> r == Run([StatusQuery, Say(AlreadyUnsealed)], Exit(0))
    ensures r.outcome == Exit(1) <==>
              ResolveCredentials(WithPlaceholder(options), store).Success?
              && w.status.Success? && w.status.value.sealed && w.status.value.t > |SharesOf(options, w)|
    ensures (ReadStdin in r.effects) <==>
              ResolveCredentials(WithPlaceholder(options), store).Success?
              && w.status.Success? && w.status.value.sealed && IsSet(Get(options, "stdin"))
  {
    match ResolveCredentials(WithPlaceholder(options), store)
    case Failure(e) => Run([], Failed(e))
    case Success(_) =>
      match w.status
      case Failure(e) => Run([StatusQuery], Failed(e))
      case Success(status) =>
        if !status.sealed then Run([StatusQuery, Say(AlreadyUnsealed)], Exit(0))
        else
          var read := Prelude(options);
          var keys := SharesOf(options, w);
          if status.t > |keys| then Run(read + [Say(NotEnoughKeys)], Exit(1))
          else After(read, SubmitLoop(keys, w.reply))
  }

  /** The key loop and its report: the shares it got through are submitted
      in order; an error reply is thrown, otherwise success is reported with
      exit code 0. */
  function SubmitLoop(keys: seq<string>, reply: (nat, string) -> Result<SealStatus, Error>): (r: Run)
    ensures forall i :: 0 <= i < |r.effects| ==> r.effects[i].SubmitKey? || r.effects[i] == Say(VaultUnsealed)
    ensures r.outcome.Failed? <==> SubmitFrom(keys, reply, 0).error.Some?
    ensures r.outcome.Exit? ==> r.outcome.code == 0
    ensures r.outcome.Failed? <==> Say(VaultUnsealed) !in r.effects
    ensures r.outcome.Exit? ==> r.effects[|r.effects| - 1] == Say(VaultUnsealed)
  {
    var s := SubmitFrom(keys, reply, 0);
    var sent := Submits(keys[..s.sent]);
    match s.error
    case Some(e) => Run(sent, Failed(e))
    case None => Run(sent + [Say(VaultUnsealed)], Exit(0))
  }

  /** The whole command: the positional shares override any `keys` option,
      the options are validated, then the action runs. */
  function Unseal(opts: Record, keysArg: seq<string>, store: Store, w: UnsealWorld): (r: Run)
    ensures Parse(UnsealSchema, Spread(opts, map["keys" := Strs(keysArg)])).Failure? ==>
              r.effects == [] && r.outcome.Failed? && r.outcome.error.ValidationError?
    ensures Parse(UnsealSchema, Spread(opts, map["keys" := Strs(keysArg)])).Success? ==>
              var options := Parse(UnsealSchema, Spread(opts, map["keys" := Strs(keysArg)])).value;
              r == UnsealAction(options, store, w) && Get(options, "keys") == Strs(keysArg)
  {
    match Parse(UnsealSchema, Spread(opts, map["keys" := Strs(keysArg)]))
    case Failure(e) => Run([], Failed(e))
    case Success(options) => UnsealAction(options, store, w)
  }

  /** The shares submitted during a run, in order. */
  function SubmittedShares(effects: seq<Effect>): (keys: seq<string>)
    ensures |keys| <= |effects|
    decreases |effects|
  {
    if |effects| == 0 then []
    else (if effects[0].SubmitKey? then [effects[0].key] else []) + SubmittedShares(effects[1..])
  }

  lemma {:induction false} SubmittedSharesAppend(a: seq<Effect>, b: seq<Effect>)
    ensures SubmittedShares(a + b) == SubmittedShares(a) + SubmittedShares(b)
    decreases |a|
  {
    if |a| == 0 {
      assert a + b == b;
    } else {
      SubmittedSharesAppend(a[1..], b);
      assert (a + b)[1..] == a[1..] + b && (a + b)[0] == a[0];
    }
  }

  lemma {:induction false} SubmittedSharesOfSubmits(keys: seq<string>)
    ensures SubmittedShares(Submits(keys)) == keys
    decreases |keys|
  {
    if |keys| > 0 {
      SubmittedSharesOfSubmits(keys[1..]);
      assert Submits(keys)[1..] == Submits(keys[1..]);
    }
  }

  lemma {:induction false} NoSubmittedShares(effects: seq<Effect>)
    requires forall i :: 0 <= i < |effects| ==> !effects[i].SubmitKey?
    ensures SubmittedShares(effects) == []
    decreases |effects|
  {
    if |effects| > 0 {
      NoSubmittedShares(effects[1..]);
    }
  }

  /** The loop submits exactly the shares it got through. */
  lemma SubmitLoopShares(keys: seq<string>, reply: (nat, string) -> Result<SealStatus, Error>)
    ensures SubmittedShares(SubmitLoop(keys, reply).effects) == keys[..SubmitFrom(keys, reply, 0).sent]
  {
    var s := SubmitFrom(keys, reply, 0);
    var sent := Submits(keys[..s.sent]);
    SubmittedSharesOfSubmits(keys[..s.sent]);
    if s.error.None? {
      SubmittedSharesAppend(sent, [Say(VaultUnsealed)]);
      NoSubmittedShares([Say(VaultUnsealed)]);
    }
  }

  /** The shares a run submits: none unless the loop runs, and then the
      ones the loop got through. */
  lemma SubmittedSharesOfRun(options: Record, store: Store, w: UnsealWorld)
    ensures SubmittedShares(UnsealAction(options, store, w).effects)
         == if LoopRuns(options, store, w)
            then SharesOf(options, w)[..SubmitFrom(SharesOf(options, w), w.reply, 0).sent] else []
  {
    var r := UnsealAction(options, store, w);
    var read := Prelude(options);
    if ResolveCredentials(WithPlaceholder(options), store).Failure? {
      assert r.effects == [];
    } else if w.status.Failure? {
      NoSubmittedShares([StatusQuery]);
    } else if !w.status.value.sealed {
      NoSubmittedShares([StatusQuery, Say(AlreadyUnsealed)]);
    } else if !LoopRuns(options, store, w) {
      NoSubmittedShares(read + [Say(NotEnoughKeys)]);
    } else {
      var keys := SharesOf(options, w);
      NoSubmittedShares(read);
      assert r == After(read, SubmitLoop(keys, w.reply));
      SubmittedSharesAppend(read, SubmitLoop(keys, w.reply).effects);
      SubmitLoopShares(keys, w.reply);
    }
  }

  /** The shares submitted are a leading part of the shares in use, each
      sent once and in order; at least as many as the threshold are
      available whenever any is sent; and the loop stops after the first
      reply that ends it. */
  lemma SubmitsLeadingShares(options: Record, store: Store, w: UnsealWorld)
    ensures var sent := SubmittedShares(UnsealAction(options, store, w).effects);
            var keys := SharesOf(options, w);
            sent <= keys
            && (sent != [] ==> w.status.Success? && w.status.value.sealed && w.status.value.t <= |keys|)
            && (forall j :: 0 <= j < |sent| - 1 ==> !Stops(w.reply(j, keys[j])))
            && (0 < |sent| < |keys| ==> Stops(w.reply(|sent| - 1, keys[|sent| - 1])))
  {
    var sent := SubmittedShares(UnsealAction(options, store, w).effects);
    var keys := SharesOf(options, w);
    SubmittedSharesOfRun(options, store, w);
    if LoopRuns(options, store, w) {
      LoopSendsLeadingShares(keys, w.reply, sent);
    } else {
      assert sent == [];
    }
  }

  /** What the loop gets through is a leading part of the shares, ending
      at the first reply that stops it. */
  lemma LoopSendsLeadingShares(keys: seq<string>, reply: (nat, string) -> Result<SealStatus, Error>,
                               sent: seq<string>)
    requires sent == keys[..SubmitFrom(keys, reply, 0).sent]
    ensures sent <= keys
    ensures forall j :: 0 <= j < |sent| - 1 ==> !Stops(reply(j, keys[j]))
    ensures 0 < |sent| < |keys| ==> Stops(reply(|sent| - 1, keys[|sent| - 1]))
  {
  }

  /** The key loop sends nothing to a backend that is already unsealed, or
      when fewer shares than the threshold are available. */
  lemma NothingSubmittedWithoutNeed(options: Record, store: Store, w: UnsealWorld)
    requires w.status.Success?
    requires !w.status.value.sealed || w.status.value.t > |SharesOf(options, w)|
    ensures SubmittedShares(UnsealAction(options, store, w).effects) == []
  {
    SubmitsLeadingShares(options, store, w);
  }

  /** When no reply ends the loop, every share is sent and success is
      reported. */
  lemma LoopRunsOutOfShares(keys: seq<string>, reply: (nat, string) -> Result<SealStatus, Error>)
    requires forall j :: 0 <= j < |keys| ==> !Stops(reply(j, keys[j]))
    ensures SubmitFrom(keys, reply, 0).sent == |keys|
    ensures SubmitLoop(keys, reply) == Run(Submits(keys) + [Say(VaultUnsealed)], Exit(0))
  {
    var s := SubmitFrom(keys, reply, 0);
    assert keys[..s.sent] == keys;
  }

  /** Success is reported even when every share was sent and the backend
      still answered sealed with progress under way: the loop just runs out
      of shares. */
  lemma SuccessReportedWhenSharesRunOut(options: Record, store: Store, w: UnsealWorld)
    requires LoopRuns(options, store, w)
    requires forall j :: 0 <= j < |SharesOf(options, w)| ==> !Stops(w.reply(j, SharesOf(options, w)[j]))
    ensures UnsealAction(options, store, w).outcome == Exit(0)
    ensures Say(VaultUnsealed) in UnsealAction(options, store, w).effects
    ensures SubmittedShares(UnsealAction(options, store, w).effects) == SharesOf(options, w)
  {
    ActionRunsLoop(options, store, w);
    LoopAfterReadSucceeds(Prelude(options),
                          SharesOf(options, w), w.reply);
  }

  /** A loop that no reply stops, after effects that submit nothing,
      reports success and submits every share. */
  lemma LoopAfterReadSucceeds(read: seq<Effect>, keys: seq<string>,
                              reply: (nat, string) -> Result<SealStatus, Error>)
    requires forall i :: 0 <= i < |read| ==> !read[i].SubmitKey?
    requires forall j :: 0 <= j < |keys| ==> !Stops(reply(j, keys[j]))
    ensures After(read, SubmitLoop(keys, reply)).outcome == Exit(0)
    ensures Say(VaultUnsealed) in After(read, SubmitLoop(keys, reply)).effects
    ensures SubmittedShares(After(read, SubmitLoop(keys, reply)).effects) == keys
  {
    var done := [Say(VaultUnsealed)];
    var loopEffects := Submits(keys) + done;
    LoopRunsOutOfShares(keys, reply);
    assert After(read, SubmitLoop(keys, reply)) == Run(read + loopEffects, Exit(0));
    assert (read + loopEffects)[|read| + |keys|] == Say(VaultUnsealed);
    assert SubmittedShares(read + loopEffects) == keys by {
      SubmittedSharesAppend(read, loopEffects);
      SubmittedSharesAppend(Submits(keys), done);
      NoSubmittedShares(read);
      NoSubmittedShares(done);
      SubmittedSharesOfSubmits(keys);
    }
  }

  /** Once the loop runs, the run is the status query, the read of standard
      input if asked for, then the loop. */
  lemma ActionRunsLoop(options: Record, store: Store, w: UnsealWorld)
    requires LoopRuns(options, store, w)
    ensures UnsealAction(options, store, w)
         == After(Prelude(options),
                  SubmitLoop(SharesOf(options, w), w.reply))
  {
  }

  /** Unsealing needs no token: with no profile name, an endpoint URL alone
      is enough to reach the backend. */
  lemma EndpointAloneReachesBackend(options: Record, store: Store, w: UnsealWorld, endpoint: string)
    requires endpoint != ""
    requires ProfileName(options).None? && Get(options, "endpointUrl") == Str(endpoint)
    ensures |UnsealAction(options, store, w).effects| >= 1
    ensures UnsealAction(options, store, w).effects[0] == StatusQuery
  {
    var withToken := WithPlaceholder(options);
    assert Get(withToken, "profile") == Get(options, "profile");
    assert Get(withToken, "endpointUrl") == Str(endpoint);
    assert Get(withToken, "token") == Str(PlaceholderToken);
  }
}

=== FILE: vault.dfy ===
/** KV2 secret references (`readKV2Path` in src/lib/vault.ts). A reference
    such as `secret/my-app/production` names a KV version-2 engine mount
    (`secret`) and a path inside it (`my-app/production`).

    The implementation of `readKV2Path` is not part of this model's sources;
    only its tests are. The rule modelled here is: split on `/`, drop empty
    segments; the reference is rejected when it contains no `/` at all or
    has no non-empty segment; otherwise the first segment is the mount and
    the remaining segments, joined by `/`, are the path. */
module Vault {
  import opened Wrappers
  import opened Strings
  import opened Types

  datatype Kv2Path = Kv2Path(mountPath: string, path: string)

  /** A path inside an engine in normal form: empty (the engine root), or
      with no leading, trailing or doubled `/`. */
  predicate Normalised(path: string)
  {
    path == "" || forall i :: 0 <= i < |Split(path, '/')| ==> Split(path, '/')[i] != ""
  }

  /** A mount name is one non-empty segment. */
  predicate IsMountName(m: string)
  {
    m != "" && '/' !in m
  }

  /** Joining separator-free, non-empty segments gives a normalised path
      whose segments are exactly those. */
  lemma JoinedSegmentsNormalised(segs: seq<string>)
    requires forall i :: 0 <= i < |segs| ==> segs[i] != "" && '/' !in segs[i]
    ensures Normalised(Join(segs, '/'))
    ensures Segments(Join(segs, '/'), '/') == segs
  {
    if |segs| == 0 {
      assert Split("", '/') == [""];
    } else {
      SplitJoin(segs, '/');
      NonEmptyKeepsAll(segs);
    }
  }

  /** `readKV2Path`: the mount is the first non-empty segment and the path
      is made of the others, so no segment is lost, reordered or invented;
      a reference without `/` or without any segment is rejected with the
      reference itself in the error. */
  function ReadKv2Path(s: string): (r: Result<Kv2Path, Error>)
    ensures r.Failure? <==> '/' !in s || Segments(s, '/') == []
    ensures r.Failure? ==> r.error == InvalidKv2Path(s)
    ensures r.Success? ==> IsMountName(r.value.mountPath) && Normalised(r.value.path)
    ensures r.Success? ==> Segments(s, '/') == [r.value.mountPath] + Segments(r.value.path, '/')
  {
    var segs := Segments(s, '/');
    if '/' !in s || segs == [] then Failure(InvalidKv2Path(s))
    else
      assert forall i :: 0 <= i < |segs[1..]| ==> segs[1..][i] in segs;
      JoinedSegmentsNormalised(segs[1..]);
      assert segs == [segs[0]] + segs[1..];
      Success(Kv2Path(segs[0], Join(segs[1..], '/')))
  }

  /** The outcome of parsing depends only on whether there is a `/` and on
      the non-empty segments. */
  lemma ReadDependsOnSegments(a: string, b: string)
    requires ('/' in a) == ('/' in b) && Segments(a, '/') == Segments(b, '/')
    ensures ReadKv2Path(a).Success? == ReadKv2Path(b).Success?
    ensures ReadKv2Path(a).Success? ==> ReadKv2Path(a) == ReadKv2Path(b)
  {
    var segs := Segments(a, '/');
    if '/' in a && segs != [] {
      assert ReadKv2Path(a) == Success(Kv2Path(segs[0], Join(segs[1..], '/')));
      assert ReadKv2Path(b) == Success(Kv2Path(segs[0], Join(segs[1..], '/')));
    }
  }

  /** The reference a parsed path is written back as. */
  function Render(p: Kv2Path): string
  {
    p.mountPath + "/" + p.path
  }

  /** Rendering a well-formed mount and normalised path and parsing it
      again gives back the same pair. */
  lemma RenderRoundTrip(p: Kv2Path)
    requires IsMountName(p.mountPath) && Normalised(p.path)
    ensures ReadKv2Path(Render(p)) == Success(p)
  {
    var s := Render(p);
    assert '/' in s by { assert s[|p.mountPath|] == '/'; }
    var tail := ['/'] + p.path;
    assert s == p.mountPath + tail;
    SplitPrefix(p.mountPath, tail, '/');
    SplitAfterSep(p.path, '/');
    var rest := Split(p.path, '/');
    assert Split(tail, '/')[0] == "" && Split(tail, '/')[1..] == rest;
    assert p.mountPath + "" == p.mountPath;
    assert Split(s, '/') == [p.mountPath] + rest;
    NonEmptyAppend([p.mountPath], rest);
    if p.path == "" {
      assert rest == [""];
      assert Segments(s, '/') == [p.mountPath];
    } else {
      NonEmptyKeepsAll(rest);
      JoinSplit(p.path, '/');
      assert Segments(s, '/') == [p.mountPath] + rest;
      assert ([p.mountPath] + rest)[1..] == rest;
    }
  }

  /** Parsing is idempotent: a parsed reference, rendered and parsed again,
      gives the same result. */
  lemma ReadRenderIdempotent(s: string)
    requires ReadKv2Path(s).Success?
    ensures ReadKv2Path(Render(ReadKv2Path(s).value)) == ReadKv2Path(s)
  {
    RenderRoundTrip(ReadKv2Path(s).value);
  }

  /** A leading `/` never changes whether a reference that already
      contains a `/` is accepted, nor what it parses to. */
  lemma LeadingSlashIgnored(s: string)
    requires '/' in s
    ensures ReadKv2Path("/" + s).Success? == ReadKv2Path(s).Success?
    ensures ReadKv2Path(s).Success? ==> ReadKv2Path("/" + s) == ReadKv2Path(s)
  {
    var a := ['/'] + s;
    assert "/" + s == a;
    SplitAfterSep(s, '/');
    NonEmptyAppend([""], Split(s, '/'));
    assert NonEmpty([""]) == [];
    assert Segments(a, '/') == Segments(s, '/');
    assert a[0] == '/';
    ReadDependsOnSegments(a, s);
  }

  /** A trailing `/` never changes whether a reference that already
      contains a `/` is accepted, nor what it parses to. */
  lemma TrailingSlashIgnored(s: string)
    requires '/' in s
    ensures ReadKv2Path(s + "/").Success? == ReadKv2Path(s).Success?
    ensures ReadKv2Path(s).Success? ==> ReadKv2Path(s + "/") == ReadKv2Path(s)
  {
    var a := s + ['/'];
    assert s + "/" == a;
    SplitAppendSep(s, '/');
    NonEmptyAppend(Split(s, '/'), [""]);
    assert NonEmpty([""]) == [];
    assert Segments(a, '/') == Segments(s, '/');
    assert a[|s|] == '/';
    ReadDependsOnSegments(a, s);
  }

  /** Joining two or more segments and parsing the result takes the first
      segment as the mount and re-joins the others as the path. */
  lemma ReadOfJoinedSegments(segs: seq<string>)
    requires |segs| >= 2
    requires forall i :: 0 <= i < |segs| ==> segs[i] != "" && '/' !in segs[i]
    ensures ReadKv2Path(Join(segs, '/')) == Success(Kv2Path(segs[0], Join(segs[1..], '/')))
  {
    SplitJoin(segs, '/');
    NonEmptyKeepsAll(segs);
    var s := Join(segs, '/');
    assert s == segs[0] + ['/'] + Join(segs[1..], '/');
    assert s[|segs[0]|] == '/';
  }

  /** tests/vault.test.ts: `secret/my-app/production` is mount `secret`,
      path `my-app/production`. */
  lemma ParsesMountAndPath()
    ensures ReadKv2Path(Join(["secret", "my-app", "production"], '/'))
         == Success(Kv2Path("secret", Join(["my-app", "production"], '/')))
  {
    var segs := ["secret", "my-app", "production"];
    ReadOfJoinedSegments(segs);
    assert segs[1..] == ["my-app", "production"];
  }

  /** tests/vault.test.ts: `secret` has no `/` and is rejected. */
  lemma RejectsReferenceWithoutSlash()
    ensures ReadKv2Path("secret") == Failure(InvalidKv2Path("secret"))
  {
    assert '/' !in "secret";
  }

  /** tests/vault.test.ts: `/` has no mount segment and is rejected. */
  lemma RejectsBareSlash()
    ensures ReadKv2Path("/") == Failure(InvalidKv2Path("/"))
  {
    SplitAfterSep("", '/');
    assert "/" == ['/'] + "";
    assert Split("/", '/') == ["", ""];
  }

  /** tests/vault.test.ts: leading and trailing slashes are ignored, so
      `/secret/my-app/production/` parses like `secret/my-app/production`. */
  lemma IgnoresOuterSlashes()
    ensures ReadKv2Path("/" + Join(["secret", "my-app", "production"], '/') + "/")
         == Success(Kv2Path("secret", Join(["my-app", "production"], '/')))
  {
    var s := Join(["secret", "my-app", "production"], '/');
    ParsesMountAndPath();
    OuterSlashesIgnored(s);
  }

  /** Both outer slashes together are ignored as well. */
  lemma OuterSlashesIgnored(s: string)
    requires ReadKv2Path(s).Success?
    ensures ReadKv2Path("/" + s + "/") == ReadKv2Path(s)
  {
    TrailingSlashIgnored(s);
    LeadingSlashIgnored(s + "/");
    assert "/" + (s + "/") == "/" + s + "/";
  }

  /** An untested input, fixed by the rule modelled here: a mount followed
      by a lone `/` is accepted and names the engine root. */
  lemma MountOnlyIsEngineRoot()
    ensures ReadKv2Path("secret/") == Success(Kv2Path("secret", ""))
  {
    RenderRoundTrip(Kv2Path("secret", ""));
    assert Render(Kv2Path("secret", "")) == "secret/";
  }
}

=== FILE: wrappers.dfy ===
/** Optional values and fallible results, the two shapes the command-line
    client uses for "maybe absent" (a missing profile, NaN from parseInt)
    and "may throw" (an invalid path, a backend error). */
module Wrappers {

  datatype Option<+T> = None | Some(value: T)

  datatype Result<+T, +E> = Success(value: T) | Failure(error: E)
}
